=== FILE: README.md ===
# Delight File Forge — a Dafny model of the media downloader and the file converter

The web application has two client-side widgets with real logic:

- **URL downloader** (`UrlDownloader.tsx`).
  - It classifies a pasted link by platform with a chain of substring tests.
  - It offers a catalogue of output formats.
  - It turns the URL and the chosen format into a request for a media-extraction API.
  - It keeps a list of downloads: an entry is prepended as "processing" and then settled by the API's reply.
  - It also defines a file-name sanitiser, which nothing calls.
- **File converter** (`DropZone.tsx`).
  - It classifies dropped files by MIME type and gives each a default target format.
  - It lets the user change, "convert" (a relabelling after a delay) and remove files.
  - It builds the downloaded name: the base name, ".", then the lower-cased format.

The model is a set of pure functions over immutable datatypes, one module per concern:

| module | file | models |
|---|---|---|
| `Optional` | optional.dfy | `Option`, for JavaScript's `undefined` |
| `Lists` | lists.dfy | deleting by id with `filter`, shared by both widgets |
| `Text` | text.dfy | the JavaScript string operations the code relies on: `includes`, `startsWith`, `trim`, `lastIndexOf`, `substring`, `toLowerCase`, capitalising the first letter |
| `Platforms` | platforms.dfy | `detectPlatform`, `getFormatOptions`, the request body and its quality map |
| `FileNameSanitizer` | sanitizer.dfy | `sanitizeFileName`, step by step |
| `DownloadList` | download_list.dfy | the downloader's state: submit, reply handling, removal |
| `FileKinds` | file_kinds.dfy | `getFileType` and the per-kind format catalogue |
| `ConverterList` | converter_list.dfy | the converter's state: add, choose, convert, remove, download |

The state holders are datatypes, and each React handler is a function from state to state:

- `Widget` holds `url`, `selectedFormat`, `downloads` and `isProcessing`.
- `Converter` holds `files`, the `selectedFormat` record and `converting`.

Time, randomness and the browser are inputs to these functions:

- The id made from `Date.now()` or `Math.random()`.
- The object URL from `URL.createObjectURL`.
- The fetch result: either no reply or a parsed reply.

Ids are never assumed to be unique. Where uniqueness matters, a lemma states it as a precondition, and a companion lemma shows what happens when it fails: in the downloader a reply settles an older entry with the same id too, and in the converter an added file with a listed file's id overwrites that file's selection, which can leave it with a format outside its own catalogue.

Properties proved:

- **Platform detection.** `detectPlatform` returns the first platform in priority order whose needles occur in the URL. It returns "other" exactly when no needle occurs. It gives the same answer for the raw and the trimmed field.
- **Format catalogues and requests.** Every option labelled "Áudio" is requested in audio mode. Every video option has its own quality.
- **Sanitiser.**
  - The result is at most 80 characters long, uses only `[A-Za-z0-9_-]`, has no `__` and does not start with `_`.
  - Its letters, digits and dashes are a prefix of the input's, and all of them when the input has at most 80 characters.
  - Every run of rejected characters and every run of underscores becomes one '_', so words stay separated, and the end trim cuts at most one '_' at each end.
  - Its fixed points are exactly the canonical names.
- **Download list.**
  - Replies settle exactly the entries that carry the request's id.
  - Removal and late replies commute.
  - With a fresh id, a submit followed by its reply changes at most the new entry.
- **Converter list.** Adding, choosing, converting and removing files preserve an invariant: distinct ids, and every file has a selection from its own kind's catalogue. Completing a conversion preserves it in whatever state it lands, after other handlers ran, as long as the captured format suits the file. Under that invariant every download succeeds.

## Model

| member | source | states |
|---|---|---|
| Text.ContainsIffOccurs | src/components/UrlDownloader.tsx:37-41 | The recursive substring test used for `includes` holds exactly when the needle occurs at some index of the URL. |
| Text.OccursAtContains | src/components/UrlDownloader.tsx:37-41 | An occurrence at a given index makes `includes` true. |
| Text.ContainsKeepsCharacters | src/components/UrlDownloader.tsx:37-41 | If the URL includes a needle, every character of the needle is in the URL. |
| Text.LeadingWhitespace | src/components/UrlDownloader.tsx:87 | Gives the number of leading characters that `trim` removes: all of them are ECMAScript whitespace, and the next one is not. |
| Text.EndOfContent | src/components/UrlDownloader.tsx:87 | Gives the end of the content: everything after it is whitespace, and the character before it is not. |
| Text.TrimIsSlice | src/components/UrlDownloader.tsx:87-93 | `trim` returns a contiguous slice of its input. Only whitespace lies outside the slice, and a non-empty result starts and ends with non-whitespace. |
| Text.BlankIffAllWhitespace | src/components/UrlDownloader.tsx:87-90 | `url.trim()` is empty exactly when every character of the field is whitespace. |
| Text.SliceContains | src/components/UrlDownloader.tsx:92-93 | A needle that occurs in a slice also occurs in the whole string. |
| Text.OccurrenceInSlice | src/components/UrlDownloader.tsx:92-93 | An occurrence that lies inside a slice is an occurrence in that slice. |
| Text.ContainsUnderTrim | src/components/UrlDownloader.tsx:92-93 | For a non-empty needle without whitespace, `includes` gives the same answer on the trimmed and the raw string. |
| Text.TrimIdempotent | src/components/UrlDownloader.tsx:87-93 | Trimming a trimmed string changes nothing. |
| Text.StartsWithOccurs | src/components/DropZone.tsx:15-18 | `startsWith` holds exactly when the prefix occurs at index 0, so it implies `includes`. |
| Text.LastIndexOf | src/components/DropZone.tsx:116 | `lastIndexOf` returns -1 or an index holding the character, and the character does not occur after that index. |
| Text.Clamp | src/components/DropZone.tsx:116 | Clamps a `substring` argument into [0, length]: a negative index becomes 0, one above the length becomes the length, and indices already in range are unchanged. |
| Text.Substring | src/components/DropZone.tsx:116 | `substring` is the slice for in-range arguments and empty when both arguments are at most 0, as with `substring(0, -1)`. |
| Text.LowerAscii | src/components/DropZone.tsx:117 | `toLowerCase` keeps the length. Each upper-case ASCII letter becomes its own lower-case letter (code point plus 32), no upper-case letter is left, and every other character is unchanged. |
| Text.LowerAsciiIdempotent | src/components/DropZone.tsx:117 | Lower-casing an already lower-cased string changes nothing. |
| Text.Capitalize | src/components/UrlDownloader.tsx:98 | `charAt(0).toUpperCase() + slice(1)` keeps the length and the tail. A lower-case first letter becomes its own upper-case letter (code point minus 32); any other first character is kept. |
| Lists.Without | src/components/UrlDownloader.tsx:191 | `filter(d => d.id !== id)` (also DropZone.tsx line 88): no element with the id remains, and the list does not grow. |
| Lists.WithoutKeepsOthers | src/components/UrlDownloader.tsx:191 | An element remains exactly when it was in the list with another id. |
| Lists.WithoutAppend | src/components/UrlDownloader.tsx:191 | Filtering distributes over concatenation, so it keeps the order. |
| Lists.WithoutAbsent | src/components/UrlDownloader.tsx:191 | Filtering out an id that no element carries changes nothing. |
| Platforms.MatchesByNeedle | src/components/UrlDownloader.tsx:36-43 | Each platform's match is exactly the disjunction of its `includes` tests. "other" has none. |
| Platforms.DetectPlatform | src/components/UrlDownloader.tsx:36-43 | The result's needles occur in the URL. No platform earlier in the chain matches. "other" is returned exactly when no platform matches. |
| Platforms.OtherIffNoNeedle | src/components/UrlDownloader.tsx:36-43 | "other" exactly when none of the seven needles occurs in the URL. |
| Platforms.ShortYoutubeLinkWins | src/components/UrlDownloader.tsx:37 | Any URL containing "youtu.be" is YouTube, whatever else it contains. |
| Platforms.XDotComIsTwitter | src/components/UrlDownloader.tsx:40 | Containing "x.com" and none of the earlier needles classifies a URL as Twitter. |
| Platforms.DropboxContainsXDotCom | src/components/UrlDownloader.tsx:40 | "dropbox.com" contains "x.com". |
| Platforms.MissingCharacter | src/components/UrlDownloader.tsx:36-43 | A needle with a character the URL lacks does not occur in it. |
| Platforms.DropboxUrlNeedles | src/components/UrlDownloader.tsx:37-40 | A concrete Dropbox link contains "x.com" and none of the YouTube, TikTok or Instagram needles. |
| Platforms.DropboxUrlLacks | src/components/UrlDownloader.tsx:37-39 | That Dropbox link has no 'y', 'k' or 'g'. |
| Platforms.DropboxLinkIsTwitter | src/components/UrlDownloader.tsx:40 | A Dropbox link is classified as Twitter, because the "x.com" test is a plain substring test. |
| Platforms.NeedlesHaveNoWhitespace | src/components/UrlDownloader.tsx:37-41 | Every needle is non-empty and free of whitespace. |
| Platforms.DetectIgnoresTrim | src/components/UrlDownloader.tsx:92-93 | Detecting on the raw field, as the code does, gives the same platform as detecting on the trimmed URL that is stored and sent. |
| Platforms.DisplayedPlatform | src/components/UrlDownloader.tsx:70 | The empty-field guard `url ? detectPlatform(url) : 'other'` agrees with `detectPlatform` on every input. |
| Platforms.FormatOptions | src/components/UrlDownloader.tsx:45-62 | Every platform gets the four common options first. YouTube alone gets two more: 4K and WebM. |
| Platforms.FormatValuesDistinct | src/components/UrlDownloader.tsx:45-62 | Option values are distinct within each catalogue. |
| Platforms.BuildRequest | src/components/UrlDownloader.tsx:109-129 | The request carries the trimmed URL and the "pretty" pattern. Audio mode exactly for mp3 and wav. The quality is the map's value, or "720" when the format has none. The quality is always 720, 1080 or 2160. |
| Platforms.CatalogueAgreesWithRequest | src/components/UrlDownloader.tsx:45-62 | For every offered option: audio mode exactly when the label starts with "Áudio", and the quality map covers exactly the video options. |
| FileNameSanitizer.Letters | src/components/UrlDownloader.tsx:73-81 | The letters, digits and '-' of the input, in order (by definition). The result is no longer than the input and all its characters are significant. |
| FileNameSanitizer.LettersAppend | src/components/UrlDownloader.tsx:73-81 | Extracting the significant characters distributes over concatenation. |
| FileNameSanitizer.LettersOfNoise | src/components/UrlDownloader.tsx:73-81 | A string with no significant character has none to keep. |
| FileNameSanitizer.DropNoiseKeepsLetters | src/components/UrlDownloader.tsx:77-79 | Dropping a prefix with no significant characters keeps all of them. |
| FileNameSanitizer.LettersOfPrefix | src/components/UrlDownloader.tsx:80 | A prefix's significant characters are a prefix of the whole string's. |
| FileNameSanitizer.StripMarks | src/components/UrlDownloader.tsx:76 | Removing U+0300–U+036F leaves no combining mark and does not lengthen the string. |
| FileNameSanitizer.StripMarksKeepsLetters | src/components/UrlDownloader.tsx:76 | Removing marks keeps every significant character in order. |
| FileNameSanitizer.StripMarksIdentity | src/components/UrlDownloader.tsx:76 | A string with no combining mark is unchanged. |
| FileNameSanitizer.RejectedRun | src/components/UrlDownloader.tsx:77 | Gives the length of the maximal leading run of characters outside `[a-zA-Z0-9-_]`. |
| FileNameSanitizer.ReplaceRejectedRuns | src/components/UrlDownloader.tsx:77 | After each maximal run of rejected characters becomes one '_', every character is allowed and the string is no longer. |
| FileNameSanitizer.ReplaceKeepsLetters | src/components/UrlDownloader.tsx:77 | The replacement keeps every significant character in order. |
| FileNameSanitizer.ReplaceKeptHead | src/components/UrlDownloader.tsx:77 | An allowed first character passes through unchanged. |
| FileNameSanitizer.ReplaceRejectedHead | src/components/UrlDownloader.tsx:77 | A one-character rejected run followed by an allowed character becomes a single '_'. |
| FileNameSanitizer.ReplaceKeptPrefix | src/components/UrlDownloader.tsx:77 | An all-allowed prefix passes through unchanged. |
| FileNameSanitizer.RejectedRunOf | src/components/UrlDownloader.tsx:77 | A block of rejected characters followed by an allowed character, or by nothing, is one whole run. |
| FileNameSanitizer.ReplaceRejectedRun | src/components/UrlDownloader.tsx:77 | A whole run of rejected characters of any length becomes exactly one '_' before the rest is processed. |
| FileNameSanitizer.UnderscoreRun | src/components/UrlDownloader.tsx:78 | Gives the length of the maximal leading run of '_'. |
| FileNameSanitizer.CollapseUnderscores | src/components/UrlDownloader.tsx:78 | The result never has two '_' in a row. It keeps the first character and allowed-only content, and is no longer than the input. |
| FileNameSanitizer.UnderscoreRunOf | src/components/UrlDownloader.tsx:78 | A block of n underscores followed by another character, or by nothing, is one run of length n. |
| FileNameSanitizer.CollapseRun | src/components/UrlDownloader.tsx:78 | A run of underscores of any length is kept as exactly one '_', not deleted. |
| FileNameSanitizer.CollapseKeptHead | src/components/UrlDownloader.tsx:78 | A character other than '_' passes through collapsing. |
| FileNameSanitizer.CollapseKeepsLetters | src/components/UrlDownloader.tsx:78 | Collapsing keeps every significant character in order. |
| FileNameSanitizer.CollapseIdentity | src/components/UrlDownloader.tsx:78 | A string without `__` is unchanged. |
| FileNameSanitizer.TrimUnderscore | src/components/UrlDownloader.tsx:79 | On a string without `__`, the result neither starts nor ends with '_'. A string that already does not is unchanged. Allowed-only content and the absence of `__` are kept. |
| FileNameSanitizer.TrimUnderscoreCutsEnds | src/components/UrlDownloader.tsx:79 | The result is a slice of the input that drops at most one character at each end, and a dropped character is '_'. |
| FileNameSanitizer.TrimUnderscoreKeepsLetters | src/components/UrlDownloader.tsx:79 | Trimming keeps every significant character. |
| FileNameSanitizer.Truncate | src/components/UrlDownloader.tsx:80 | `slice(0, 80)` gives a prefix of at most 80 characters, which is the whole string when the string is short enough. |
| FileNameSanitizer.SanitizeFileName | src/components/UrlDownloader.tsx:73-81 | The result is at most 80 characters long, uses only `[A-Za-z0-9_-]`, has no `__` and does not start with '_'. |
| FileNameSanitizer.NormalisedIsShorter | src/components/UrlDownloader.tsx:75-79 | The steps before the cut never lengthen the name. |
| FileNameSanitizer.SanitizeKeepsLetters | src/components/UrlDownloader.tsx:73-81 | The result's letters, digits and dashes are a prefix of the input's, and all of them when the input has at most 80 characters. |
| FileNameSanitizer.CanonicalIsFixed | src/components/UrlDownloader.tsx:73-81 | A canonical name is returned unchanged. A canonical name has at most 80 allowed characters, no `__`, and no '_' at either end. |
| FileNameSanitizer.FixedIsCanonical | src/components/UrlDownloader.tsx:73-81 | Any name the sanitiser returns unchanged is canonical. |
| FileNameSanitizer.FixedPointsAreCanonical | src/components/UrlDownloader.tsx:73-81 | The sanitiser's fixed points are exactly the canonical names. |
| FileNameSanitizer.CutCanEndInUnderscore | src/components/UrlDownloader.tsx:79-80 | Because the 80-character cut comes after the underscore trim, the result can end in '_'. For example, 79 letters followed by " b" give the letters plus "_". |
| FileNameSanitizer.MarksOfSpaceB | src/components/UrlDownloader.tsx:76 | That example input has no combining mark. |
| FileNameSanitizer.ReplaceSpaceB | src/components/UrlDownloader.tsx:77 | In that example input the space becomes '_'. |
| FileNameSanitizer.SpaceBReplaced | src/components/UrlDownloader.tsx:77 | " b" becomes "_b". |
| FileNameSanitizer.CollapseUnderscoreB | src/components/UrlDownloader.tsx:78 | The example has no `__`, so collapsing leaves it unchanged. |
| DownloadList.ProcessingTitle | src/components/UrlDownloader.tsx:98 | The in-flight title is "Processando mídia do ", then the platform's name with its initial upper-cased and the rest unchanged, then "...". |
| DownloadList.CapitalizeName | src/components/UrlDownloader.tsx:98 | Capitalising a name that starts with a lower-case letter replaces only that letter. |
| DownloadList.ProcessingTitles | src/components/UrlDownloader.tsx:98 | The six titles match a separate table of display names: "Youtube", "Tiktok", "Instagram", "Twitter", "Facebook" and "Other". |
| DownloadList.Submit | src/components/UrlDownloader.tsx:84-106 | A blank field changes nothing and sends nothing. Otherwise exactly one entry is prepended and everything else follows unchanged. The new entry is "processing" and carries the id, the trimmed URL, the raw field's platform (equal to the trimmed URL's), that platform's processing title and the selected format. The field is cleared, the busy flag is set, and the request for the trimmed URL is produced. |
| DownloadList.Judge | src/components/UrlDownloader.tsx:131-179 | "error" and "rate-limit" fail. "redirect", "stream" and "success" resolve to the reply's url. "picker" resolves to the first option's url. It fails when the `picker` field is missing, because indexing `undefined` throws inside the `try`. With an empty list it leaves the entry unsettled, because `firstOption.url` throws only inside the state updater, outside the `try`. Other statuses and failed requests fail. Each verdict holds exactly in its cases. |
| DownloadList.Settle | src/components/UrlDownloader.tsx:137-177 | The entry's id, URL, platform and format are kept. Unless the reply leaves it unsettled, it becomes "ready" exactly when the reply resolves and "error" exactly when it fails. A ready entry gets the link, the reply's file name, and that name (or "Mídia_<id>") as title. An error entry changes only its status and its title. An unsettled entry is unchanged. |
| DownloadList.ApplyOutcome | src/components/UrlDownloader.tsx:138-150 | Every entry with the id is settled, and every other entry is unchanged and in place. |
| DownloadList.Finish | src/components/UrlDownloader.tsx:137-182 | Every entry with the id is settled by the outcome. Entries with other ids, the field and the format are unchanged, and the busy flag is cleared. |
| DownloadList.FirstWithId | src/components/UrlDownloader.tsx:187 | `find` returns the first entry with the id, and nothing exactly when no entry has it. |
| DownloadList.RemoveDownload | src/components/UrlDownloader.tsx:185-193 | The list is filtered with `Lists.Without`. A URL is released exactly when the first entry with the id has a non-empty `downloadUrl`, and the released URL is that entry's `downloadUrl`. |
| DownloadList.ApplyOutcomeAppend | src/components/UrlDownloader.tsx:138-150 | Settling distributes over concatenation. |
| DownloadList.RemoveCommutesWithOutcome | src/components/UrlDownloader.tsx:138-191 | Settling one id and removing another happen in either order with the same list. |
| DownloadList.LateOutcomeIsHarmless | src/components/UrlDownloader.tsx:173-191 | A reply for an entry that has been removed leaves the list unchanged. |
| DownloadList.SubmitThenFinish | src/components/UrlDownloader.tsx:95-182 | With a fresh id, a submit and its outcome leave the settled new entry followed by the old list, unchanged. |
| DownloadList.CollidingIdIsSettledToo | src/components/UrlDownloader.tsx:96-150 | With a clock-made id that repeats an older entry's id, the reply settles that older entry too. |
| FileKinds.GetFileType | src/components/DropZone.tsx:15-20 | Image, video and audio hold exactly for their MIME prefix. Document holds exactly when none of the three prefixes applies. |
| FileKinds.ClassifyByPrefix | src/components/DropZone.tsx:15-20 | Any MIME type built from a kind's prefix classifies as that kind. |
| FileKinds.FormatOptionsFor | src/components/DropZone.tsx:31-36 | Every kind has at least four formats, all non-empty. |
| FileKinds.DefaultFormat | src/components/DropZone.tsx:80 | `formatOptions[type]?.[0] \|\| 'PDF'` is the catalogue's first entry, so it belongs to the kind's catalogue. |
| FileKinds.DefaultFormats | src/components/DropZone.tsx:31-36 | The defaults are PDF, PNG, MP4 and MP3. |
| ConverterList.Upload | src/components/DropZone.tsx:69-74 | A new entry keeps the file and the id and has the kind from the MIME type. It has a preview exactly for images, and it is not converted. |
| ConverterList.UploadAll | src/components/DropZone.tsx:69-74 | One entry per file, in input order. |
| ConverterList.IdsOfSnoc | src/components/DropZone.tsx:79-82 | The ids of a list are the ids of its front part plus the last id. |
| ConverterList.AssignDefaults | src/components/DropZone.tsx:79-82 | The selection gains exactly the new ids, and other keys keep their values. |
| ConverterList.LastWriteWins | src/components/DropZone.tsx:79-82 | A file whose id no later file repeats ends up with its kind's default format. |
| ConverterList.AddFiles | src/components/DropZone.tsx:68-85 | The old files come first, unchanged, followed by one entry per new file in order. The conversion marker is unchanged. |
| ConverterList.AddFilesSelections | src/components/DropZone.tsx:79-82 | The selections gain exactly the new ids, and every other selection keeps its value. |
| ConverterList.AddedFilesGetDefaults | src/components/DropZone.tsx:79-82 | Each added file whose id no later added file repeats is selected with its kind's default format. |
| ConverterList.CollidingUploadTakesSelection | src/components/DropZone.tsx:68-82 | An added file that repeats a listed file's id leaves the listed file in place, but that file's selection becomes the added file's default format. |
| ConverterList.CollisionCanBreakInvariant | src/components/DropZone.tsx:68-82 | A consistent list with a video "1" becomes inconsistent when an image with id "1" is added: the video's selection becomes "PNG". |
| ConverterList.RemoveFile | src/components/DropZone.tsx:87-94 | The files are filtered with `Lists.Without`. Only the id's selection is deleted, and the marker is unchanged. |
| ConverterList.ChooseFormat | src/components/DropZone.tsx:216 | Records the chosen format for the id, keeps every other selection, and leaves the files alone. |
| ConverterList.Lookup | src/components/DropZone.tsx:105 | `selectedFormat[id]` is present exactly when the id has a selection. |
| ConverterList.BeginConvert | src/components/DropZone.tsx:96-97 | The marker names the file, and the selection as it stands now is captured. |
| ConverterList.FinishConvert | src/components/DropZone.tsx:103-109 | Every file with the id is marked converted with the captured format. Other files are unchanged, and the marker is cleared. |
| ConverterList.SelectionDuringConversionIsIgnored | src/components/DropZone.tsx:96-107 | A format chosen while the conversion runs does not reach the file: it records the format selected at the start. |
| ConverterList.OverlappingConversionsClearMarker | src/components/DropZone.tsx:97-109 | With two overlapping conversions, the first to finish clears the marker while the second is still running. |
| ConverterList.LateConversionIsHarmless | src/components/DropZone.tsx:87-107 | A conversion that finishes after its file was removed changes no file. |
| ConverterList.BaseName | src/components/DropZone.tsx:116 | Either the name before the last '.' (when that is non-empty), or the whole name exactly when no '.' occurs after the first character. |
| ConverterList.BaseNameOfExtension | src/components/DropZone.tsx:116-117 | The base name of "base.ext" is "base" for a non-empty base and a dot-free extension. |
| ConverterList.ChosenFormat | src/components/DropZone.tsx:114 | A non-empty converted format wins. Otherwise the current selection is used, if any. |
| ConverterList.Download | src/components/DropZone.tsx:113-121 | There is a download exactly when a format can be chosen. It has the original bytes and MIME type, and its name is the base name, ".", then the lower-cased format. |
| ConverterList.ConvertedFormatWins | src/components/DropZone.tsx:105-117 | After a conversion, choosing another format does not change the downloaded name. |
| ConverterList.InitialIsWellFormed | src/components/DropZone.tsx:40-42 | The empty initial state satisfies the invariant. |
| ConverterList.DistinctAppend | src/components/DropZone.tsx:76 | Two lists with distinct ids, none shared between them, concatenate to one with distinct ids. |
| ConverterList.OldFileStaysOk | src/components/DropZone.tsx:79-82 | A listed file whose id is not added again keeps a valid selection. |
| ConverterList.OldPositionOk | src/components/DropZone.tsx:76-82 | A listed file whose id is not added again keeps its position and a valid selection. |
| ConverterList.NewPositionOk | src/components/DropZone.tsx:69-82 | An added file whose id is not repeated later is consistent with the selections at its position. |
| ConverterList.NewFileSelected | src/components/DropZone.tsx:79-82 | The entry at an added position is selected with its kind's default format. |
| ConverterList.NewFileTakesPlace | src/components/DropZone.tsx:69-76 | An added position holds the corresponding new file's id and the kind from its MIME type. |
| ConverterList.NewFileUnconverted | src/components/DropZone.tsx:69-74 | An added entry is not converted and has no converted format. |
| ConverterList.ListedFileKeepsPlace | src/components/DropZone.tsx:76 | Adding files leaves the listed files at their positions. |
| ConverterList.AddFilesPreserves | src/components/DropZone.tsx:68-85 | Adding files with distinct, fresh ids preserves the invariant. |
| ConverterList.AddedFilesAreOk | src/components/DropZone.tsx:68-85 | After adding, every file, old or new, is consistent with the selections. |
| ConverterList.RemoveFilePreserves | src/components/DropZone.tsx:87-94 | Removing a file preserves the invariant. |
| ConverterList.RemovePreservesDistinct | src/components/DropZone.tsx:88 | Filtering keeps ids distinct. |
| ConverterList.ChooseFormatPreserves | src/components/DropZone.tsx:216 | Choosing a format from the file's own catalogue preserves the invariant. |
| ConverterList.FinishConvertKeepsInvariant | src/components/DropZone.tsx:103-109 | Completing a conversion on any consistent state keeps it consistent, provided the captured format is in the catalogue of every file it marks. Other handlers may have run since the conversion started. |
| ConverterList.BeginConvertCapturesFit | src/components/DropZone.tsx:96-105 | Starting a conversion on a consistent state keeps it consistent. The captured selection suits every file with that id. |
| ConverterList.ChooseFormatKeepsCapture | src/components/DropZone.tsx:216 | Choosing a format while a conversion runs leaves the capture suitable. |
| ConverterList.RemoveFileKeepsCapture | src/components/DropZone.tsx:87-94 | Removing a file while a conversion runs leaves the capture suitable for the remaining files. |
| ConverterList.FinishConvertPreserves | src/components/DropZone.tsx:96-109 | A conversion started and finished on the same consistent state preserves the invariant. |
| ConverterList.WellFormedDownloads | src/components/DropZone.tsx:113-121 | Under the invariant every download succeeds, keeps the file's bytes, and ends in "." plus the lower-cased form of a format from the file's catalogue. |

## Left out

- Unicode normalisation: `normalize('NFD')` in the sanitiser is not modelled. `FileNameSanitizer.SanitizeFileName` takes the already-decomposed string as its input.
- UTF-16: the model's strings are sequences of Unicode code points, while JavaScript strings are sequences of UTF-16 code units. The behaviour modelled does not depend on this, because the needles, whitespace, '.', the format labels and the sanitiser's allowed characters all lie in the Basic Multilingual Plane. A file name holding a lone surrogate cannot be represented.
- Case mapping outside ASCII: `toLowerCase` and `toUpperCase` are modelled on ASCII letters only. Platform names and format labels are ASCII.
- Rendering: the JSX, icons (`getPlatformIcon`, `getFileIcon`), drag-hover state and the toasts (including the error message text from line 134) are presentation only.
- The network request: the `fetch` to the extraction API and `response.json()` become the `Outcome` input. A thrown fetch, a JSON failure, or a reply that is not an object is `NoReply`. A `picker` field that is present but not an array, or whose first element is not an object, is not modelled.
- The two-second `setTimeout` in `handleConvert`: the conversion is split into a start step and a completion step instead. No real conversion happens in the source either; the download is the original file under a new name.
- Browser object URLs: `URL.createObjectURL` values are inputs. Revoking them in `removeDownload` and `handleDownload`, and building the download link element, are effects outside the model. A preview's object URL is never revoked by `removeFile`.
- Id generation: `Date.now()` and `Math.random()` are replaced by id parameters.
- React's batching of state updates: each handler is one atomic transition on the state.
- Keys inherited from `Object.prototype`: `qualityMap[...]` and `selectedFormat[...]` could in principle find such keys, but the model treats these records as plain maps.
- Display-only expressions: the select's shown value `selectedFormat[id] || formats[0]` (DropZone.tsx line 215) and the format badge `download.format.split('-')[0]` (UrlDownloader.tsx line 304).
- The disabled submit button (UrlDownloader.tsx line 249) and convert button (DropZone.tsx line 241): `DownloadList.Submit` and `ConverterList.BeginConvert` accept every call, so the model also covers clicks that the disabled buttons would block.
- `handleDrop`, `handleFileInput`: both just pass the chosen files to `addFiles`, which `ConverterList.AddFiles` models.
- `FileNameSanitizer.SanitizeFileName`: modelled although nothing in the source calls it, so no downloaded name goes through it.
- `DownloadList.Judge`: with a "picker" reply whose list is empty, the state updater throws while React renders. With no error boundary this unmounts the widget. The model keeps the state and leaves the entry "processing" (`Unsettled`), with the busy flag cleared by `finally`. It does not model the crash.
- `DownloadList.Submit`, `ConverterList.AddFiles`: the lemmas that need fresh ids state this as a precondition, because ids made from the clock or a random number can collide. `DownloadList.CollidingIdIsSettledToo`, `ConverterList.CollidingUploadTakesSelection` and `ConverterList.CollisionCanBreakInvariant` show the effect when they do.

=== FILE: converter_list.dfy ===
/**
 The file converter's list: adding dropped or picked files, choosing a
 target format, removing a file, marking a file converted, and deriving
 the downloaded file's name and contents. Ids and preview object URLs are
 inputs; the conversion itself only relabels the file.
 */
module ConverterList {
  import opened Optional
  import opened Text
  import opened FileKinds
  import opened Lists

  /** A browser `File`: its name, declared MIME type and contents. */
  datatype SourceFile = SourceFile(name: string, mimeType: string, bytes: seq<bv8>)

  datatype UploadedFile = UploadedFile(
    file: SourceFile,
    id: string,
    kind: FileKind,
    preview: Option<string>,
    converted: bool,
    convertedFormat: Option<string>)

  /** A file being added, with the id and the object URL the browser would hand out for it. */
  datatype Intake = Intake(file: SourceFile, id: string, objectUrl: string)

  /** The widget's state: the files, the selected format per id, and the id being converted. */
  datatype Converter = Converter(files: seq<UploadedFile>, selected: map<string, string>, converting: Option<string>)

  const InitialConverter: Converter := Converter([], map[], None)

  /** The ids carried by a list of files. */
  function IdsOf(us: seq<UploadedFile>): set<string> {
    set j | 0 <= j < |us| :: us[j].id
  }

  /** The entry made for one added file: classified, previewed exactly when it is an image, not converted. */
  function Upload(i: Intake): (u: UploadedFile)
    ensures u.file == i.file && u.id == i.id
    ensures u.kind == GetFileType(i.file.mimeType)
    ensures u.preview.Some? <==> StartsWith(i.file.mimeType, "image/")
    ensures u.preview.Some? ==> u.preview.value == i.objectUrl
    ensures !u.converted && u.convertedFormat == None
  {
    UploadedFile(i.file, i.id, GetFileType(i.file.mimeType),
                 if StartsWith(i.file.mimeType, "image/") then Some(i.objectUrl) else None,
                 false, None)
  }

  function UploadAll(incoming: seq<Intake>): (r: seq<UploadedFile>)
    ensures |r| == |incoming|
    ensures forall j {:trigger r[j]} :: 0 <= j < |incoming| ==> r[j] == Upload(incoming[j])
  {
    seq(|incoming|, j requires 0 <= j < |incoming| => Upload(incoming[j]))
  }

  /** Splitting off the last file splits off its id. */
  lemma IdsOfSnoc(us: seq<UploadedFile>)
    requires |us| > 0
    ensures IdsOf(us) == IdsOf(us[..|us| - 1]) + {us[|us| - 1].id}
  {
    var init := us[..|us| - 1];
    forall k | k in IdsOf(us) ensures k in IdsOf(init) + {us[|us| - 1].id} {
      var j :| 0 <= j < |us| && us[j].id == k;
      if j < |us| - 1 { assert init[j].id == k; }
    }
    forall k | k in IdsOf(init) ensures k in IdsOf(us) {
      var j :| 0 <= j < |init| && init[j].id == k;
      assert us[j].id == k;
    }
  }

  /**
   Records each file's default format in turn, so a later file with the
   same id overwrites an earlier one; keys outside the files' ids keep
   their values.
   */
  function AssignDefaults(m: map<string, string>, us: seq<UploadedFile>): (r: map<string, string>)
    ensures r.Keys == m.Keys + IdsOf(us)
    ensures forall k :: k in m && k !in IdsOf(us) ==> r[k] == m[k]
    decreases |us|
  {
    if |us| == 0 then m
    else
      IdsOfSnoc(us);
      AssignDefaults(m, us[..|us| - 1])[us[|us| - 1].id := DefaultFormat(us[|us| - 1].kind)]
  }

  /** A file whose id no later file repeats ends up with its kind's default format. */
  lemma {:induction false} LastWriteWins(m: map<string, string>, us: seq<UploadedFile>, j: int)
    requires 0 <= j < |us|
    requires forall l :: j < l < |us| ==> us[l].id != us[j].id
    ensures AssignDefaults(m, us)[us[j].id] == DefaultFormat(us[j].kind)
    decreases |us|
  {
    if j < |us| - 1 {
      var init := us[..|us| - 1];
      assert init[j] == us[j];
      forall l | j < l < |init| ensures init[l].id != init[j].id {
        assert init[l] == us[l];
      }
      LastWriteWins(m, init, j);
    }
  }

  /**
   Appends the new files after the existing ones, in input order, and
   selects each new id's default format. Other selections and the
   conversion marker are unchanged.
   */
  function AddFiles(st: Converter, incoming: seq<Intake>): (r: Converter)
    ensures |r.files| == |st.files| + |incoming|
    ensures r.files[..|st.files|] == st.files
    ensures forall i :: |st.files| <= i < |r.files| ==> r.files[i] == Upload(incoming[i - |st.files|])
    ensures r.converting == st.converting
  {
    var uploaded := UploadAll(incoming);
    st.(files := st.files + uploaded, selected := AssignDefaults(st.selected, uploaded))
  }

  /** Adding files selects exactly the new ids in addition and keeps every other selection. */
  lemma AddFilesSelections(st: Converter, incoming: seq<Intake>)
    ensures AddFiles(st, incoming).selected.Keys == st.selected.Keys + IdsOf(UploadAll(incoming))
    ensures forall k :: k in st.selected && k !in IdsOf(UploadAll(incoming)) ==>
      AddFiles(st, incoming).selected[k] == st.selected[k]
  {
  }

  /** No file added after the j-th one repeats its id. */
  predicate LaterIdsDiffer(incoming: seq<Intake>, j: int)
    requires 0 <= j < |incoming|
  {
    forall l :: j < l < |incoming| ==> incoming[l].id != incoming[j].id
  }

  /** A file added with an id that no later added file repeats gets its kind's default format. */
  lemma AddedFilesGetDefaults(st: Converter, incoming: seq<Intake>, j: int)
    requires 0 <= j < |incoming|
    requires LaterIdsDiffer(incoming, j)
    ensures incoming[j].id in AddFiles(st, incoming).selected
    ensures AddFiles(st, incoming).selected[incoming[j].id] == DefaultFormat(GetFileType(incoming[j].file.mimeType))
  {
    var uploaded := UploadAll(incoming);
    assert uploaded[j] == Upload(incoming[j]);
    assert uploaded[j].id in IdsOf(uploaded);
    forall l | j < l < |uploaded| ensures uploaded[l].id != uploaded[j].id {
      assert uploaded[l] == Upload(incoming[l]);
    }
    LastWriteWins(st.selected, uploaded, j);
  }

  /** The key the list is filtered on. */
  function FileId(f: UploadedFile): string {
    f.id
  }

  /** Drops the files carrying `id` and that id's selection; every other selection is kept. */
  function RemoveFile(st: Converter, id: string): (r: Converter)
    ensures r.files == Without(st.files, FileId, id)
    ensures r.selected.Keys == st.selected.Keys - {id}
    ensures forall k :: k in r.selected ==> r.selected[k] == st.selected[k]
    ensures r.converting == st.converting
  {
    st.(files := Without(st.files, FileId, id), selected := st.selected - {id})
  }

  /** The format picker's change handler: records the chosen format for one id. */
  function ChooseFormat(st: Converter, id: string, format: string): (r: Converter)
    ensures r.files == st.files && r.converting == st.converting
    ensures r.selected.Keys == st.selected.Keys + {id}
    ensures r.selected[id] == format
    ensures forall k :: k in st.selected && k != id ==> r.selected[k] == st.selected[k]
  {
    st.(selected := st.selected[id := format])
  }

  /** The value `selectedFormat[id]`: absent when the id has no selection. */
  function Lookup(m: map<string, string>, id: string): (r: Option<string>)
    ensures r.Some? <==> id in m
    ensures r.Some? ==> r.value == m[id]
  {
    if id in m then Some(m[id]) else None
  }

  /**
   A conversion starts: the marker names the file, and the handler keeps
   the selection as it stands now, which is what it will record when the
   conversion completes.
   */
  function BeginConvert(st: Converter, id: string): (r: (Converter, Option<string>))
    ensures r.0.files == st.files && r.0.selected == st.selected
    ensures r.0.converting == Some(id)
    ensures r.1.Some? <==> id in st.selected
    ensures r.1.Some? ==> r.1.value == st.selected[id]
  {
    (st.(converting := Some(id)), Lookup(st.selected, id))
  }

  /**
   A conversion completes: every file carrying `id` is marked converted to
   the format captured when it started (absent if there was none); no
   other file changes, and the marker is cleared whichever file it names.
   */
  function FinishConvert(st: Converter, id: string, captured: Option<string>): (r: Converter)
    ensures |r.files| == |st.files|
    ensures forall i :: 0 <= i < |st.files| && st.files[i].id != id ==> r.files[i] == st.files[i]
    ensures forall i :: 0 <= i < |st.files| && st.files[i].id == id ==>
      r.files[i] == st.files[i].(converted := true, convertedFormat := captured)
    ensures r.selected == st.selected
    ensures r.converting == None
  {
    var marked := seq(|st.files|, i requires 0 <= i < |st.files| =>
      if st.files[i].id == id then st.files[i].(converted := true, convertedFormat := captured)
      else st.files[i]);
    Converter(marked, st.selected, None)
  }

  /**
   A format chosen while the conversion runs does not reach the file: it is
   recorded with the format selected when the conversion started.
   */
  lemma SelectionDuringConversionIsIgnored(st: Converter, id: string, later: string, i: int)
    requires 0 <= i < |st.files| && st.files[i].id == id
    ensures
      var (running, captured) := BeginConvert(st, id);
      FinishConvert(ChooseFormat(running, id, later), id, captured).files[i].convertedFormat
        == Lookup(st.selected, id)
  {
  }

  /**
   The marker is a single slot, not a lock: when two conversions overlap,
   the first to finish clears it although the second is still running.
   */
  lemma OverlappingConversionsClearMarker(st: Converter, a: string, b: string)
    ensures BeginConvert(BeginConvert(st, a).0, b).0.converting == Some(b)
    ensures FinishConvert(BeginConvert(BeginConvert(st, a).0, b).0, a, BeginConvert(st, a).1).converting == None
  {
  }

  /** A conversion finishing after its file was removed changes no file. */
  lemma LateConversionIsHarmless(st: Converter, id: string, captured: Option<string>)
    ensures FinishConvert(RemoveFile(st, id), id, captured).files == RemoveFile(st, id).files
  {
  }

  /**
   `name.substring(0, name.lastIndexOf('.')) || name`: the part before the
   last dot, or the whole name when that part is empty (no dot, or the only
   dot is the first character).
   */
  function BaseName(name: string): (r: string)
    ensures r != name ==>
      && 0 < |r| < |name| && r == name[..|r|] && name[|r|] == '.'
      && forall i :: |r| < i < |name| ==> name[i] != '.'
    ensures r == name <==> forall i :: 0 < i < |name| ==> name[i] != '.'
  {
    var cut := Substring(name, 0, LastIndexOf(name, '.'));
    if cut == "" then name else cut
  }

  /** Round trip: the base name of "base.ext" is "base" when the base is non-empty and the extension has no dot. */
  lemma BaseNameOfExtension(base: string, ext: string)
    requires base != ""
    requires forall i :: 0 <= i < |ext| ==> ext[i] != '.'
    ensures BaseName(base + "." + ext) == base
  {
    var name := base + "." + ext;
    assert name[|base|] == '.';
    forall i | |base| < i < |name| ensures name[i] != '.' {
      assert name[i] == ext[i - |base| - 1];
    }
    assert LastIndexOf(name, '.') == |base|;
    assert name[..|base|] == base;
  }

  /** `fileItem.convertedFormat || selectedFormat[id]`. */
  function ChosenFormat(f: UploadedFile, selected: map<string, string>): (r: Option<string>)
    ensures f.convertedFormat.Some? && f.convertedFormat.value != "" ==> r == f.convertedFormat
    ensures (f.convertedFormat.None? || f.convertedFormat.value == "") ==> r == Lookup(selected, f.id)
  {
    if f.convertedFormat.Some? && f.convertedFormat.value != "" then f.convertedFormat
    else Lookup(selected, f.id)
  }

  /** The downloaded blob and its file name. */
  datatype Artifact = Artifact(name: string, bytes: seq<bv8>, mimeType: string)

  /**
   The download of one file: its original bytes and MIME type under the
   name base + "." + the lower-cased chosen format. With no format to
   choose (the lookup would throw) there is no download.
   */
  function Download(f: UploadedFile, selected: map<string, string>): (r: Option<Artifact>)
    ensures r.Some? <==> ChosenFormat(f, selected).Some?
    ensures r.Some? ==> r.value.bytes == f.file.bytes && r.value.mimeType == f.file.mimeType
    ensures r.Some? ==> r.value.name == BaseName(f.file.name) + "." + LowerAscii(ChosenFormat(f, selected).value)
  {
    match ChosenFormat(f, selected)
    case None => None
    case Some(format) => Some(Artifact(BaseName(f.file.name) + "." + LowerAscii(format), f.file.bytes, f.file.mimeType))
  }

  /** A converted file keeps its converted format even if the selection changes afterwards. */
  lemma ConvertedFormatWins(st: Converter, id: string, later: string, i: int)
    requires 0 <= i < |st.files| && st.files[i].id == id
    requires id in st.selected && st.selected[id] != ""
    ensures
      var done := ChooseFormat(FinishConvert(st, id, BeginConvert(st, id).1), id, later);
      Download(done.files[i], done.selected).Some? &&
      Download(done.files[i], done.selected).value.name
        == BaseName(st.files[i].file.name) + "." + LowerAscii(st.selected[id])
  {
  }

  predicate DistinctIds(files: seq<UploadedFile>) {
    forall i, j :: 0 <= i < j < |files| ==> files[i].id != files[j].id
  }

  /**
   One file's part of the invariant: it has a selection from its kind's
   catalogue, and it is converted exactly when it carries a converted
   format, which also comes from its kind's catalogue.
   */
  predicate FileOk(selected: map<string, string>, f: UploadedFile) {
    && f.id in selected && selected[f.id] in FormatOptionsFor(f.kind)
    && (f.converted <==> f.convertedFormat.Some?)
    && (f.convertedFormat.Some? ==> f.convertedFormat.value in FormatOptionsFor(f.kind))
  }

  /** The list invariant: ids are distinct and every file is consistent with the selections. */
  predicate WellFormed(st: Converter) {
    && DistinctIds(st.files)
    && forall i :: 0 <= i < |st.files| ==> FileOk(st.selected, st.files[i])
  }

  lemma InitialIsWellFormed()
    ensures WellFormed(InitialConverter)
  {
  }

  lemma DistinctAppend(a: seq<UploadedFile>, b: seq<UploadedFile>)
    requires DistinctIds(a) && DistinctIds(b)
    requires forall i, j :: 0 <= i < |a| && 0 <= j < |b| ==> a[i].id != b[j].id
    ensures DistinctIds(a + b)
  {
    forall i, j | 0 <= i < j < |a + b| ensures (a + b)[i].id != (a + b)[j].id {
      if j < |a| {
        assert (a + b)[i] == a[i] && (a + b)[j] == a[j];
      } else if i < |a| {
        assert (a + b)[i] == a[i] && (a + b)[j] == b[j - |a|];
      } else {
        assert (a + b)[i] == b[i - |a|] && (a + b)[j] == b[j - |a|];
      }
    }
  }

  /** A listed file whose id is not among the added ones keeps its selection. */
  lemma OldFileStaysOk(st: Converter, incoming: seq<Intake>, f: UploadedFile)
    requires FileOk(st.selected, f)
    requires forall j :: 0 <= j < |incoming| ==> incoming[j].id != f.id
    ensures FileOk(AddFiles(st, incoming).selected, f)
  {
    var uploaded := UploadAll(incoming);
    forall j | 0 <= j < |uploaded| ensures uploaded[j].id != f.id {
      assert uploaded[j] == Upload(incoming[j]);
    }
    assert f.id !in IdsOf(uploaded);
    AddFilesSelections(st, incoming);
  }

  /** Adding files with distinct ids not already listed keeps the invariant. */
  lemma AddFilesPreserves(st: Converter, incoming: seq<Intake>)
    requires WellFormed(st)
    requires forall i, j :: 0 <= i < j < |incoming| ==> incoming[i].id != incoming[j].id
    requires forall i, j :: 0 <= i < |st.files| && 0 <= j < |incoming| ==> st.files[i].id != incoming[j].id
    ensures WellFormed(AddFiles(st, incoming))
  {
    var uploaded := UploadAll(incoming);
    assert AddFiles(st, incoming).files == st.files + uploaded;
    assert DistinctIds(uploaded) by {
      forall i, j | 0 <= i < j < |uploaded| ensures uploaded[i].id != uploaded[j].id {
        assert uploaded[i] == Upload(incoming[i]) && uploaded[j] == Upload(incoming[j]);
      }
    }
    DistinctAppend(st.files, uploaded);
    AddedFilesAreOk(st, incoming);
  }

  lemma AddedFilesAreOk(st: Converter, incoming: seq<Intake>)
    requires forall i :: 0 <= i < |st.files| ==> FileOk(st.selected, st.files[i])
    requires forall i, j :: 0 <= i < j < |incoming| ==> incoming[i].id != incoming[j].id
    requires forall i, j :: 0 <= i < |st.files| && 0 <= j < |incoming| ==> st.files[i].id != incoming[j].id
    ensures forall i :: 0 <= i < |AddFiles(st, incoming).files| ==>
      FileOk(AddFiles(st, incoming).selected, AddFiles(st, incoming).files[i])
  {
    forall i | 0 <= i < |AddFiles(st, incoming).files|
      ensures FileOk(AddFiles(st, incoming).selected, AddFiles(st, incoming).files[i])
    {
      if i < |st.files| {
        OldPositionOk(st, incoming, i);
      } else {
        NewPositionOk(st, incoming, i);
      }
    }
  }

  /** A listed file keeps its place and its selection. */
  lemma OldPositionOk(st: Converter, incoming: seq<Intake>, i: int)
    requires 0 <= i < |st.files|
    requires FileOk(st.selected, st.files[i])
    requires forall j :: 0 <= j < |incoming| ==> incoming[j].id != st.files[i].id
    ensures FileOk(AddFiles(st, incoming).selected, AddFiles(st, incoming).files[i])
  {
    ListedFileKeepsPlace(st, incoming, i);
    OldFileStaysOk(st, incoming, st.files[i]);
  }

  /** An added file takes its place after the listed ones and gets its default selection. */
  lemma NewPositionOk(st: Converter, incoming: seq<Intake>, i: int)
    requires |st.files| <= i < |st.files| + |incoming|
    requires LaterIdsDiffer(incoming, i - |st.files|)
    ensures FileOk(AddFiles(st, incoming).selected, AddFiles(st, incoming).files[i])
  {
    NewFileSelected(st, incoming, i);
    NewFileUnconverted(st, incoming, i);
  }

  /** An added entry is selected with its kind's default format. */
  lemma NewFileSelected(st: Converter, incoming: seq<Intake>, i: int)
    requires |st.files| <= i < |st.files| + |incoming|
    requires LaterIdsDiffer(incoming, i - |st.files|)
    ensures AddFiles(st, incoming).files[i].id in AddFiles(st, incoming).selected
    ensures AddFiles(st, incoming).selected[AddFiles(st, incoming).files[i].id]
      == DefaultFormat(AddFiles(st, incoming).files[i].kind)
  {
    NewFileTakesPlace(st, incoming, i);
    AddedFilesGetDefaults(st, incoming, i - |st.files|);
  }

  /** Adding files puts each new entry after the listed ones, in input order. */
  lemma NewFileTakesPlace(st: Converter, incoming: seq<Intake>, i: int)
    requires |st.files| <= i < |st.files| + |incoming|
    ensures AddFiles(st, incoming).files[i].id == incoming[i - |st.files|].id
    ensures AddFiles(st, incoming).files[i].kind == GetFileType(incoming[i - |st.files|].file.mimeType)
  {
    var j := i - |st.files|;
    assert AddFiles(st, incoming).files[i] == Upload(incoming[j]);
  }

  /** An added entry is not converted. */
  lemma NewFileUnconverted(st: Converter, incoming: seq<Intake>, i: int)
    requires |st.files| <= i < |st.files| + |incoming|
    ensures !AddFiles(st, incoming).files[i].converted && AddFiles(st, incoming).files[i].convertedFormat.None?
  {
    var j := i - |st.files|;
    assert AddFiles(st, incoming).files[i] == Upload(incoming[j]);
  }

  /** Adding files leaves the listed ones where they were. */
  lemma ListedFileKeepsPlace(st: Converter, incoming: seq<Intake>, i: int)
    requires 0 <= i < |st.files|
    ensures AddFiles(st, incoming).files[i] == st.files[i]
  {
    assert AddFiles(st, incoming).files[..|st.files|][i] == st.files[i];
  }

  /** Removing a file keeps the invariant. */
  lemma RemoveFilePreserves(st: Converter, id: string)
    requires WellFormed(st)
    ensures WellFormed(RemoveFile(st, id))
  {
    var r := RemoveFile(st, id);
    RemovePreservesDistinct(st.files, id);
    forall i | 0 <= i < |r.files| ensures FileOk(r.selected, r.files[i]) {
      WithoutKeepsOthers(st.files, FileId, id, r.files[i]);
      var k :| 0 <= k < |st.files| && st.files[k] == r.files[i];
      assert FileOk(st.selected, st.files[k]);
    }
  }

  lemma {:induction false} RemovePreservesDistinct(files: seq<UploadedFile>, id: string)
    requires DistinctIds(files)
    ensures DistinctIds(Without(files, FileId, id))
    decreases |files|
  {
    if |files| > 0 {
      var rest := Without(files[1..], FileId, id);
      assert DistinctIds(files[1..]) by {
        forall i, j | 0 <= i < j < |files[1..]| ensures files[1..][i].id != files[1..][j].id {
          assert files[1..][i] == files[i + 1] && files[1..][j] == files[j + 1];
        }
      }
      RemovePreservesDistinct(files[1..], id);
      var head := if files[0].id == id then [] else [files[0]];
      forall i, j | 0 <= i < |head| && 0 <= j < |rest| ensures head[i].id != rest[j].id {
        WithoutKeepsOthers(files[1..], FileId, id, rest[j]);
        assert rest[j] in rest;
        var k :| 0 <= k < |files[1..]| && files[1..][k] == rest[j];
        assert files[k + 1] == rest[j];
      }
      DistinctAppend(head, rest);
    }
  }

  /** Choosing a format from the file's own catalogue keeps the invariant. */
  lemma ChooseFormatPreserves(st: Converter, id: string, format: string)
    requires WellFormed(st)
    requires forall i :: 0 <= i < |st.files| && st.files[i].id == id ==> format in FormatOptionsFor(st.files[i].kind)
    ensures WellFormed(ChooseFormat(st, id, format))
  {
    var r := ChooseFormat(st, id, format);
    forall i | 0 <= i < |r.files| ensures FileOk(r.selected, r.files[i]) {
      assert FileOk(st.selected, st.files[i]);
    }
  }

  /** The captured format suits every file carrying the id: it is present and in that file's catalogue. */
  predicate CaptureFits(files: seq<UploadedFile>, id: string, captured: Option<string>) {
    forall i :: 0 <= i < |files| && files[i].id == id ==>
      captured.Some? && captured.value in FormatOptionsFor(files[i].kind)
  }

  /**
   Completing a conversion keeps the invariant in whatever state it lands,
   after any other handlers ran since it started, as long as the format it
   captured suits the files it marks.
   */
  lemma FinishConvertKeepsInvariant(st: Converter, id: string, captured: Option<string>)
    requires WellFormed(st)
    requires CaptureFits(st.files, id, captured)
    ensures WellFormed(FinishConvert(st, id, captured))
  {
    var r := FinishConvert(st, id, captured);
    forall i | 0 <= i < |r.files| ensures FileOk(r.selected, r.files[i]) {
      assert FileOk(st.selected, st.files[i]);
    }
  }

  /** Starting a conversion keeps the invariant, and what it captures suits the files it will mark. */
  lemma BeginConvertCapturesFit(st: Converter, id: string)
    requires WellFormed(st)
    ensures WellFormed(BeginConvert(st, id).0)
    ensures CaptureFits(st.files, id, BeginConvert(st, id).1)
  {
    forall i | 0 <= i < |st.files| && st.files[i].id == id
      ensures BeginConvert(st, id).1.Some? && BeginConvert(st, id).1.value in FormatOptionsFor(st.files[i].kind)
    {
      assert FileOk(st.selected, st.files[i]);
    }
  }

  /** Choosing a format while a conversion runs leaves its capture suitable, since the files do not change. */
  lemma ChooseFormatKeepsCapture(st: Converter, id: string, other: string, format: string, captured: Option<string>)
    requires CaptureFits(st.files, id, captured)
    ensures CaptureFits(ChooseFormat(st, other, format).files, id, captured)
  {
  }

  /** Removing a file while a conversion runs leaves its capture suitable for the files that remain. */
  lemma RemoveFileKeepsCapture(st: Converter, id: string, other: string, captured: Option<string>)
    requires CaptureFits(st.files, id, captured)
    ensures CaptureFits(RemoveFile(st, other).files, id, captured)
  {
    var r := RemoveFile(st, other).files;
    forall i | 0 <= i < |r| && r[i].id == id
      ensures captured.Some? && captured.value in FormatOptionsFor(r[i].kind)
    {
      WithoutKeepsOthers(st.files, FileId, other, r[i]);
    }
  }

  /** Completing a conversion started on the same state keeps the invariant. */
  lemma FinishConvertPreserves(st: Converter, id: string)
    requires WellFormed(st)
    ensures WellFormed(FinishConvert(BeginConvert(st, id).0, id, BeginConvert(st, id).1))
  {
    BeginConvertCapturesFit(st, id);
    FinishConvertKeepsInvariant(BeginConvert(st, id).0, id, BeginConvert(st, id).1);
  }

  /**
   Ids are not checked for freshness: when an added file repeats a listed
   file's id, the listed file stays in place but its selection becomes the
   added file's default.
   */
  lemma CollidingUploadTakesSelection(st: Converter, incoming: seq<Intake>, i: int, j: int)
    requires 0 <= i < |st.files|
    requires 0 <= j < |incoming| && incoming[j].id == st.files[i].id
    requires LaterIdsDiffer(incoming, j)
    ensures AddFiles(st, incoming).files[i] == st.files[i]
    ensures st.files[i].id in AddFiles(st, incoming).selected
    ensures AddFiles(st, incoming).selected[st.files[i].id] == DefaultFormat(GetFileType(incoming[j].file.mimeType))
  {
    ListedFileKeepsPlace(st, incoming, i);
    AddedFilesGetDefaults(st, incoming, j);
  }

  /**
   A colliding id can break the invariant: a listed video whose id comes
   back on an image ends up with the image default "PNG", which is not a
   video format.
   */
  lemma CollisionCanBreakInvariant()
    ensures
      var video := UploadedFile(SourceFile("a.mp4", "video/mp4", []), "1", Video, None, false, None);
      var st := Converter([video], map["1" := "MP4"], None);
      var incoming := [Intake(SourceFile("b.png", "image/png", []), "1", "blob:b")];
      WellFormed(st) && !WellFormed(AddFiles(st, incoming))
  {
    var video := UploadedFile(SourceFile("a.mp4", "video/mp4", []), "1", Video, None, false, None);
    var st := Converter([video], map["1" := "MP4"], None);
    var incoming := [Intake(SourceFile("b.png", "image/png", []), "1", "blob:b")];
    assert LaterIdsDiffer(incoming, 0);
    ClassifyByPrefix(Image, "png");
    assert "image/" + "png" == "image/png";
    CollidingUploadTakesSelection(st, incoming, 0, 0);
    assert AddFiles(st, incoming).selected["1"] == "PNG";
    assert !FileOk(AddFiles(st, incoming).selected, AddFiles(st, incoming).files[0]);
  }

  /**
   In a well-formed list every download succeeds, keeps the file's bytes,
   and ends in "." plus the lower-cased form of a format from the file's
   own catalogue.
   */
  lemma WellFormedDownloads(st: Converter, i: int)
    requires WellFormed(st)
    requires 0 <= i < |st.files|
    ensures Download(st.files[i], st.selected).Some?
    ensures Download(st.files[i], st.selected).value.bytes == st.files[i].file.bytes
    ensures exists fmt :: (fmt in FormatOptionsFor(st.files[i].kind) &&
      Download(st.files[i], st.selected).value.name == BaseName(st.files[i].file.name) + "." + LowerAscii(fmt))
  {
    var f := st.files[i];
    assert FileOk(st.selected, f);
    var fmt := ChosenFormat(f, st.selected).value;
    assert fmt in FormatOptionsFor(f.kind);
  }
}

=== FILE: download_list.dfy ===
/**
 The URL downloader's list of downloads as a sequential state machine:
 submitting a URL prepends an entry in the `Processing` state and yields
 the API request; the API's outcome settles every entry carrying that
 entry's id; removing an id filters the list. Ids, the network outcome and
 the clock are inputs.
 */
module DownloadList {
  import opened Optional
  import opened Text
  import opened Platforms
  import opened Lists

  datatype Status = Pending | Processing | Ready | Error

  datatype DownloadResult = DownloadResult(
    id: string,
    url: string,
    title: string,
    platform: Platform,
    format: string,
    status: Status,
    downloadUrl: Option<string>,
    downloadFileName: Option<string>)

  /** One alternative offered by a `picker` reply. */
  datatype PickerItem = PickerItem(url: Option<string>)

  /** The parsed JSON reply; `picker` is absent when the reply has no such field. */
  datatype ApiReply = ApiReply(status: string, url: Option<string>, filename: Option<string>, picker: Option<seq<PickerItem>>)

  /** The request either failed (network error or unparsable body) or produced a reply. */
  datatype Outcome = NoReply | Replied(reply: ApiReply)

  /** The widget's state: the URL field, the selected format, the list and the busy flag. */
  datatype Widget = Widget(input: string, selectedFormat: string, downloads: seq<DownloadResult>, isProcessing: bool)

  /** JavaScript truthiness of an optional string: present and non-empty. */
  predicate Truthy(s: Option<string>) {
    s.Some? && s.value != ""
  }

  /** Every character is whitespace: the URL field holds nothing to submit. */
  predicate IsBlank(s: string) {
    forall i :: 0 <= i < |s| ==> IsJsWhitespace(s[i])
  }

  const ProcessingPrefix: string := "Processando mídia do "

  /**
   The title shown while a request is in flight, e.g. "Processando mídia do
   Youtube...": the platform's name with its initial in upper case, between
   the fixed prefix and an ellipsis of three dots.
   */
  function ProcessingTitle(p: Platform): (r: string)
    ensures |r| == |ProcessingPrefix| + |p.Name()| + 3
    ensures r[..|ProcessingPrefix|] == ProcessingPrefix
    ensures r[|ProcessingPrefix|] as int == p.Name()[0] as int - 32
    ensures r[|ProcessingPrefix| + 1..|r| - 3] == p.Name()[1..]
    ensures r[|r| - 3..] == "..."
  {
    ProcessingPrefix + Capitalize(p.Name()) + "..."
  }

  /** Capitalising a name that starts with a lower-case letter replaces just that letter. */
  lemma CapitalizeName(lower: char, rest: string, upper: char)
    requires 'a' <= lower <= 'z' && upper as int == lower as int - 32
    ensures Capitalize([lower] + rest) == [upper] + rest
  {
    assert ([lower] + rest)[1..] == rest;
  }

  /** The names as the titles show them, written out per platform. */
  function DisplayName(p: Platform): string {
    match p
    case Youtube => "Youtube"
    case Tiktok => "Tiktok"
    case Instagram => "Instagram"
    case Twitter => "Twitter"
    case Facebook => "Facebook"
    case Other => "Other"
  }

  /** Each title is the prefix, the platform's display name and "...". */
  lemma ProcessingTitles(p: Platform)
    ensures ProcessingTitle(p) == ProcessingPrefix + DisplayName(p) + "..."
  {
    match p
    case Youtube =>
      assert p.Name() == ['y'] + "outube";
      CapitalizeName('y', "outube", 'Y');
      assert ['Y'] + "outube" == "Youtube";
    case Tiktok =>
      assert p.Name() == ['t'] + "iktok";
      CapitalizeName('t', "iktok", 'T');
      assert ['T'] + "iktok" == "Tiktok";
    case Instagram =>
      assert p.Name() == ['i'] + "nstagram";
      CapitalizeName('i', "nstagram", 'I');
      assert ['I'] + "nstagram" == "Instagram";
    case Twitter =>
      assert p.Name() == ['t'] + "witter";
      CapitalizeName('t', "witter", 'T');
      assert ['T'] + "witter" == "Twitter";
    case Facebook =>
      assert p.Name() == ['f'] + "acebook";
      CapitalizeName('f', "acebook", 'F');
      assert ['F'] + "acebook" == "Facebook";
    case Other =>
      assert p.Name() == ['o'] + "ther";
      CapitalizeName('o', "ther", 'O');
      assert ['O'] + "ther" == "Other";
  }

  const FailedTitle: string := "Falha no processamento"

  /**
   Adds the entry for a submitted URL. A blank field changes nothing and
   sends nothing. Otherwise exactly one entry is prepended, in the
   `Processing` state, with the given id, the trimmed URL, the platform
   detected on the raw field (which is also that of the trimmed URL) and
   the selected format; the field is cleared, the busy
   flag is set, and the request for the trimmed URL is produced.
   */
  function Submit(w: Widget, newId: string): (r: (Widget, Option<ApiRequest>))
    ensures IsBlank(w.input) ==> r.0 == w && r.1 == None
    ensures !IsBlank(w.input) ==>
      && |r.0.downloads| == |w.downloads| + 1
      && r.0.downloads[1..] == w.downloads
      && r.0.downloads[0].id == newId
      && r.0.downloads[0].status == Processing
      && r.0.downloads[0].url == Trim(w.input)
      && r.0.downloads[0].platform == DetectPlatform(w.input)
      && r.0.downloads[0].platform == DetectPlatform(Trim(w.input))
      && r.0.downloads[0].title == ProcessingTitle(DetectPlatform(w.input))
      && r.0.downloads[0].format == w.selectedFormat
      && r.0.downloads[0].downloadUrl == None
      && r.0.downloads[0].downloadFileName == None
      && r.0.input == "" && r.0.isProcessing && r.0.selectedFormat == w.selectedFormat
      && r.1 == Some(BuildRequest(Trim(w.input), w.selectedFormat))
  {
    BlankIffAllWhitespace(w.input);
    DetectIgnoresTrim(w.input);
    if Trim(w.input) == [] then (w, None)
    else
      var detected := DetectPlatform(w.input);
      var trimmed := Trim(w.input);
      var entry := DownloadResult(newId, trimmed, ProcessingTitle(detected), detected,
                                  w.selectedFormat, Processing, None, None);
      (w.(input := "", downloads := [entry] + w.downloads, isProcessing := true),
       Some(BuildRequest(trimmed, w.selectedFormat)))
  }

  /**
   What an outcome means for the entry: failure, readiness with a link that
   may be absent, or no change at all. The last is a "picker" reply with an
   empty list: its first option is `undefined`, which throws only inside
   the state updater, after the handler's `catch` has been left behind.
   */
  datatype Verdict = Failed | Resolved(link: Option<string>) | Unsettled

  predicate IsDirectStatus(status: string) {
    status == "redirect" || status == "stream" || status == "success"
  }

  /**
   The reply table: "error" and "rate-limit" fail; "redirect", "stream"
   and "success" resolve to the reply's url; "picker" resolves to the
   first option's url, fails when the list is missing (indexing `undefined`
   throws inside the `try`) and leaves the entry unsettled when the list is
   empty; every other status, and a failed request, fail.
   */
  function Judge(o: Outcome): (v: Verdict)
    ensures o.NoReply? ==> v == Failed
    ensures o.Replied? && (o.reply.status == "error" || o.reply.status == "rate-limit") ==> v == Failed
    ensures o.Replied? && IsDirectStatus(o.reply.status) ==> v == Resolved(o.reply.url)
    ensures o.Replied? && o.reply.status == "picker" && o.reply.picker.None? ==> v == Failed
    ensures o.Replied? && o.reply.status == "picker" && o.reply.picker.Some? && |o.reply.picker.value| > 0 ==>
      v == Resolved(o.reply.picker.value[0].url)
    ensures v.Resolved? <==>
      o.Replied? &&
      (IsDirectStatus(o.reply.status) || (o.reply.status == "picker" && o.reply.picker.Some? && |o.reply.picker.value| > 0))
    ensures v.Unsettled? <==> o.Replied? && o.reply.status == "picker" && o.reply.picker == Some([])
  {
    match o
    case NoReply => Failed
    case Replied(reply) =>
      if reply.status == "error" || reply.status == "rate-limit" then Failed
      else if IsDirectStatus(reply.status) then Resolved(reply.url)
      else if reply.status == "picker" then
        match reply.picker
        case None => Failed
        case Some(items) => if |items| == 0 then Unsettled else Resolved(items[0].url)
      else Failed
  }

  /**
   Applies an outcome to one entry. Identity, URL, platform and format are
   kept. A resolved outcome makes it `Ready` with the link, the reply's file
   name, and that file name (when non-empty) or "Mídia_<id>" as title; a
   failed one makes it `Error` with the failure title and nothing else
   changed; an unsettled one leaves the entry as it was.
   */
  function Settle(d: DownloadResult, o: Outcome): (r: DownloadResult)
    ensures r.id == d.id && r.url == d.url && r.platform == d.platform && r.format == d.format
    ensures !Judge(o).Unsettled? ==> (r.status == Ready <==> Judge(o).Resolved?)
    ensures !Judge(o).Unsettled? ==> (r.status == Error <==> Judge(o).Failed?)
    ensures Judge(o).Unsettled? ==> r == d
    ensures Judge(o).Resolved? ==>
      && r.downloadUrl == Judge(o).link
      && r.downloadFileName == o.reply.filename
      && r.title == (if Truthy(o.reply.filename) then o.reply.filename.value else "Mídia_" + d.id)
    ensures Judge(o).Failed? ==> r == d.(status := Error, title := FailedTitle)
  {
    match Judge(o)
    case Failed => d.(status := Error, title := FailedTitle)
    case Unsettled => d
    case Resolved(link) =>
      var filename := o.reply.filename;
      d.(status := Ready,
         title := if Truthy(filename) then filename.value else "Mídia_" + d.id,
         downloadUrl := link,
         downloadFileName := filename)
  }

  /** Settles every entry with the given id; all other entries are untouched and the order is kept. */
  function ApplyOutcome(list: seq<DownloadResult>, id: string, o: Outcome): (r: seq<DownloadResult>)
    ensures |r| == |list|
    ensures forall i :: 0 <= i < |list| && list[i].id != id ==> r[i] == list[i]
    ensures forall i :: 0 <= i < |list| && list[i].id == id ==> r[i] == Settle(list[i], o)
  {
    seq(|list|, i requires 0 <= i < |list| => if list[i].id == id then Settle(list[i], o) else list[i])
  }

  /** The handler's completion: the outcome is applied and the busy flag cleared. */
  function Finish(w: Widget, id: string, o: Outcome): (r: Widget)
    ensures r.input == w.input && r.selectedFormat == w.selectedFormat && !r.isProcessing
    ensures |r.downloads| == |w.downloads|
    ensures forall i :: 0 <= i < |w.downloads| && w.downloads[i].id != id ==> r.downloads[i] == w.downloads[i]
    ensures forall i :: 0 <= i < |w.downloads| && w.downloads[i].id == id ==> r.downloads[i] == Settle(w.downloads[i], o)
  {
    w.(downloads := ApplyOutcome(w.downloads, id, o), isProcessing := false)
  }

  /** The key the list is filtered on. */
  function EntryId(d: DownloadResult): string {
    d.id
  }

  /** The list without the entries carrying `id`, the others in their original order. */
  function Remove(list: seq<DownloadResult>, id: string): seq<DownloadResult> {
    Without(list, EntryId, id)
  }

  /** The first entry with the given id, if any. */
  function FirstWithId(list: seq<DownloadResult>, id: string): (r: Option<DownloadResult>)
    ensures r.None? <==> forall i :: 0 <= i < |list| ==> list[i].id != id
    ensures r.Some? ==> r.value.id == id
    ensures r.Some? ==> exists k :: (0 <= k < |list| && list[k] == r.value
      && forall j :: 0 <= j < k ==> list[j].id != id)
  {
    if |list| == 0 then None
    else if list[0].id == id then Some(list[0])
    else
      var rest := FirstWithId(list[1..], id);
      assert rest.Some? ==> exists k :: (1 <= k < |list| && list[k] == rest.value
        && forall j :: 0 <= j < k ==> list[j].id != id) by {
        if rest.Some? {
          var k :| 0 <= k < |list[1..]| && list[1..][k] == rest.value
            && forall j :: 0 <= j < k ==> list[1..][j].id != id;
          assert list[k + 1] == rest.value;
          assert forall j :: 0 <= j < k + 1 ==> list[j].id != id by {
            forall j | 0 <= j < k + 1 ensures list[j].id != id {
              if j > 0 { assert list[j] == list[1..][j - 1]; }
            }
          }
        }
      }
      rest
  }

  /**
   Removes an entry by id. The URL released is the `downloadUrl` of the
   first entry with that id, when it has a non-empty one.
   */
  function RemoveDownload(w: Widget, id: string): (r: (Widget, Option<string>))
    ensures r.0 == w.(downloads := Remove(w.downloads, id))
    ensures r.1.Some? <==> FirstWithId(w.downloads, id).Some? && Truthy(FirstWithId(w.downloads, id).value.downloadUrl)
    ensures r.1.Some? ==> r.1 == FirstWithId(w.downloads, id).value.downloadUrl
    ensures r.1.Some? ==> exists d :: d in w.downloads && d.id == id && d.downloadUrl == r.1
  {
    var found := FirstWithId(w.downloads, id);
    var released := if found.Some? && Truthy(found.value.downloadUrl) then found.value.downloadUrl else None;
    (w.(downloads := Remove(w.downloads, id)), released)
  }

  /** Settling works entry by entry, so it distributes over concatenation. */
  lemma ApplyOutcomeAppend(a: seq<DownloadResult>, b: seq<DownloadResult>, id: string, o: Outcome)
    ensures ApplyOutcome(a + b, id, o) == ApplyOutcome(a, id, o) + ApplyOutcome(b, id, o)
  {
    var l := ApplyOutcome(a + b, id, o);
    var r := ApplyOutcome(a, id, o) + ApplyOutcome(b, id, o);
    forall i | 0 <= i < |l| ensures l[i] == r[i] {
      if i >= |a| {
        assert (a + b)[i] == b[i - |a|];
      }
    }
  }

  /**
   Removal and a late outcome commute: settling entry `id` and then
   removing `x` gives the same list as removing `x` first.
   */
  lemma {:induction false} RemoveCommutesWithOutcome(list: seq<DownloadResult>, id: string, x: string, o: Outcome)
    ensures Remove(ApplyOutcome(list, id, o), x) == ApplyOutcome(Remove(list, x), id, o)
    decreases |list|
  {
    if |list| > 0 {
      var applied := ApplyOutcome(list, id, o);
      assert list == [list[0]] + list[1..];
      ApplyOutcomeAppend([list[0]], list[1..], id, o);
      assert applied == [applied[0]] + ApplyOutcome(list[1..], id, o);
      assert Remove(applied, x) == (if applied[0].id == x then [] else [applied[0]]) + Remove(ApplyOutcome(list[1..], id, o), x);
      RemoveCommutesWithOutcome(list[1..], id, x, o);
      var head := if list[0].id == x then [] else [list[0]];
      ApplyOutcomeAppend(head, Remove(list[1..], x), id, o);
    }
  }

  /** An outcome arriving after its entry was removed leaves the list as it is. */
  lemma LateOutcomeIsHarmless(list: seq<DownloadResult>, id: string, o: Outcome)
    ensures ApplyOutcome(Remove(list, id), id, o) == Remove(list, id)
  {
  }

  /**
   A submit followed by its outcome changes exactly one entry when the new
   id is fresh: the prepended entry is settled and the earlier list follows
   unchanged.
   */
  lemma SubmitThenFinish(w: Widget, newId: string, o: Outcome)
    requires !IsBlank(w.input)
    requires forall i :: 0 <= i < |w.downloads| ==> w.downloads[i].id != newId
    ensures
      var submitted := Submit(w, newId).0;
      var done := Finish(submitted, newId, o);
      && done.downloads == [Settle(submitted.downloads[0], o)] + w.downloads
      && !done.isProcessing && done.input == ""
  {
    var submitted := Submit(w, newId).0;
    var e := submitted.downloads[0];
    assert submitted.downloads == [e] + w.downloads;
    ApplyOutcomeAppend([e], w.downloads, newId, o);
    assert ApplyOutcome(w.downloads, newId, o) == w.downloads;
    assert ApplyOutcome([e], newId, o) == [Settle(e, o)];
  }

  /**
   A fresh id is not guaranteed: if an older entry already carries the new
   id, the outcome settles that entry too.
   */
  lemma CollidingIdIsSettledToo(w: Widget, newId: string, o: Outcome, k: int)
    requires !IsBlank(w.input)
    requires 0 <= k < |w.downloads| && w.downloads[k].id == newId
    ensures Finish(Submit(w, newId).0, newId, o).downloads[k + 1] == Settle(w.downloads[k], o)
  {
    assert Submit(w, newId).0.downloads[k + 1] == w.downloads[k];
  }
}

=== FILE: file_kinds.dfy ===
/**
 The file converter's classification of an uploaded file by its declared
 MIME type, and the fixed catalogue of target formats per kind whose first
 entry is the default selection.
 */
module FileKinds {
  import opened Text

  datatype FileKind = Document | Image | Video | Audio

  /**
   Classifies a MIME type by prefix: "image/", "video/" and "audio/" select
   their kinds and anything else, the empty type included, is a document.
   The three prefixes exclude one another, so each kind holds exactly when
   its own prefix is present.
   */
  function GetFileType(mimeType: string): (r: FileKind)
    ensures r == Image <==> StartsWith(mimeType, "image/")
    ensures r == Video <==> StartsWith(mimeType, "video/")
    ensures r == Audio <==> StartsWith(mimeType, "audio/")
    ensures r == Document <==>
      !StartsWith(mimeType, "image/") && !StartsWith(mimeType, "video/") && !StartsWith(mimeType, "audio/")
  {
    assert StartsWith(mimeType, "image/") ==> mimeType[0] == 'i';
    assert StartsWith(mimeType, "video/") ==> mimeType[0] == 'v';
    assert StartsWith(mimeType, "audio/") ==> mimeType[0] == 'a';
    if StartsWith(mimeType, "image/") then Image
    else if StartsWith(mimeType, "video/") then Video
    else if StartsWith(mimeType, "audio/") then Audio
    else Document
  }

  /** The MIME prefix that selects a media kind. */
  function MediaPrefix(k: FileKind): string
    requires k != Document
  {
    match k
    case Image => "image/"
    case Video => "video/"
    case Audio => "audio/"
  }

  /** Round trip: any MIME type built from a kind's prefix classifies as that kind. */
  lemma ClassifyByPrefix(k: FileKind, subtype: string)
    requires k != Document
    ensures GetFileType(MediaPrefix(k) + subtype) == k
  {
    assert MediaPrefix(k) <= MediaPrefix(k) + subtype;
  }

  /** The target formats offered for each kind, in display order. */
  function FormatOptionsFor(k: FileKind): (r: seq<string>)
    ensures |r| >= 4
    ensures forall i :: 0 <= i < |r| ==> r[i] != ""
  {
    match k
    case Document => ["PDF", "DOCX", "TXT", "RTF"]
    case Image => ["PNG", "JPG", "WEBP", "GIF", "SVG"]
    case Video => ["MP4", "MOV", "AVI", "WEBM"]
    case Audio => ["MP3", "WAV", "OGG", "AAC"]
  }

  /**
   The format selected for a newly added file: the catalogue's first entry
   for its kind, falling back to "PDF" when that entry is missing or empty.
   The fallback never fires, since every catalogue is non-empty.
   */
  function DefaultFormat(k: FileKind): (r: string)
    ensures r == FormatOptionsFor(k)[0]
    ensures r in FormatOptionsFor(k)
  {
    var options := FormatOptionsFor(k);
    if |options| > 0 && options[0] != "" then options[0] else "PDF"
  }

  /** The four defaults: PDF, PNG, MP4 and MP3. */
  lemma DefaultFormats()
    ensures DefaultFormat(Document) == "PDF"
    ensures DefaultFormat(Image) == "PNG"
    ensures DefaultFormat(Video) == "MP4"
    ensures DefaultFormat(Audio) == "MP3"
  {
  }
}

=== FILE: lists.dfy ===
/**
 Filtering a list by key, as both widgets do to delete an item:
 `list.filter(x => x.id !== id)`.
 */
module Lists {
  /** The elements whose key differs from `id`, in their original order. */
  function Without<T>(xs: seq<T>, key: T -> string, id: string): (r: seq<T>)
    ensures |r| <= |xs|
    ensures forall i :: 0 <= i < |r| ==> key(r[i]) != id
  {
    if |xs| == 0 then []
    else (if key(xs[0]) == id then [] else [xs[0]]) + Without(xs[1..], key, id)
  }

  /** Filtering keeps exactly the elements with another key. */
  lemma {:induction false} WithoutKeepsOthers<T>(xs: seq<T>, key: T -> string, id: string, x: T)
    ensures x in Without(xs, key, id) <==> x in xs && key(x) != id
    decreases |xs|
  {
    if |xs| > 0 {
      WithoutKeepsOthers(xs[1..], key, id, x);
      var head := if key(xs[0]) == id then [] else [xs[0]];
      assert x in head + Without(xs[1..], key, id) <==> x in head || x in Without(xs[1..], key, id);
      assert x in xs <==> x == xs[0] || x in xs[1..];
    }
  }

  /** Filtering keeps the order: it distributes over concatenation. */
  lemma {:induction false} WithoutAppend<T>(a: seq<T>, b: seq<T>, key: T -> string, id: string)
    ensures Without(a + b, key, id) == Without(a, key, id) + Without(b, key, id)
    decreases |a|
  {
    if |a| == 0 {
      assert a + b == b;
    } else {
      var head := if key(a[0]) == id then [] else [a[0]];
      assert (a + b)[0] == a[0];
      assert (a + b)[1..] == a[1..] + b;
      assert Without(a + b, key, id) == head + Without(a[1..] + b, key, id);
      WithoutAppend(a[1..], b, key, id);
    }
  }

  /** Filtering out a key no element carries changes nothing. */
  lemma {:induction false} WithoutAbsent<T>(xs: seq<T>, key: T -> string, id: string)
    requires forall i :: 0 <= i < |xs| ==> key(xs[i]) != id
    ensures Without(xs, key, id) == xs
    decreases |xs|
  {
    if |xs| > 0 {
      WithoutAbsent(xs[1..], key, id);
    }
  }
}

=== FILE: optional.dfy ===
/** A value that may be absent: JavaScript's `undefined` for optional fields. */
module Optional {

  datatype Option<+T> = None | Some(value: T)
}

=== FILE: platforms.dfy ===
/**
 The URL downloader's classification of a pasted URL, its per-platform
 format catalogue, and the mapping from the chosen format to the request
 body sent to the media-resolution API.
 */
module Platforms {
  import opened Text

  datatype Platform = Youtube | Tiktok | Instagram | Twitter | Facebook | Other {

    /** The tag stored in a download entry. */
    function Name(): string {
      match this
      case Youtube => "youtube"
      case Tiktok => "tiktok"
      case Instagram => "instagram"
      case Twitter => "twitter"
      case Facebook => "facebook"
      case Other => "other"
    }
  }

  /** The substrings whose presence selects each platform. */
  function Needles(p: Platform): seq<string> {
    match p
    case Youtube => ["youtube.com", "youtu.be"]
    case Tiktok => ["tiktok.com"]
    case Instagram => ["instagram.com"]
    case Twitter => ["twitter.com", "x.com"]
    case Facebook => ["facebook.com"]
    case Other => []
  }

  /** The position of each platform's test in the chain of checks; `Other` is the fall-through. */
  function Priority(p: Platform): nat {
    match p
    case Youtube => 0
    case Tiktok => 1
    case Instagram => 2
    case Twitter => 3
    case Facebook => 4
    case Other => 5
  }

  /** Some needle of platform `p` occurs in `url`. */
  predicate Matches(p: Platform, url: string) {
    exists k | 0 <= k < |Needles(p)| :: Contains(url, Needles(p)[k])
  }

  /** The rule table spelled out needle by needle. */
  lemma MatchesByNeedle(url: string)
    ensures Matches(Youtube, url) <==> Contains(url, "youtube.com") || Contains(url, "youtu.be")
    ensures Matches(Tiktok, url) <==> Contains(url, "tiktok.com")
    ensures Matches(Instagram, url) <==> Contains(url, "instagram.com")
    ensures Matches(Twitter, url) <==> Contains(url, "twitter.com") || Contains(url, "x.com")
    ensures Matches(Facebook, url) <==> Contains(url, "facebook.com")
    ensures !Matches(Other, url)
  {
    if Contains(url, "youtube.com") { assert Contains(url, Needles(Youtube)[0]); }
    if Contains(url, "youtu.be") { assert Contains(url, Needles(Youtube)[1]); }
    if Contains(url, "tiktok.com") { assert Contains(url, Needles(Tiktok)[0]); }
    if Contains(url, "instagram.com") { assert Contains(url, Needles(Instagram)[0]); }
    if Contains(url, "twitter.com") { assert Contains(url, Needles(Twitter)[0]); }
    if Contains(url, "x.com") { assert Contains(url, Needles(Twitter)[1]); }
    if Contains(url, "facebook.com") { assert Contains(url, Needles(Facebook)[0]); }
  }

  /**
   First-match classification: the result's rule matches (unless it is the
   fall-through `Other`) and no rule checked earlier matches; `Other` comes
   back exactly when no rule matches at all.
   */
  function DetectPlatform(url: string): (r: Platform)
    ensures r != Other ==> Matches(r, url)
    ensures forall q :: Priority(q) < Priority(r) ==> !Matches(q, url)
    ensures r == Other <==> forall q :: !Matches(q, url)
  {
    MatchesByNeedle(url);
    if Contains(url, "youtube.com") || Contains(url, "youtu.be") then Youtube
    else if Contains(url, "tiktok.com") then Tiktok
    else if Contains(url, "instagram.com") then Instagram
    else if Contains(url, "twitter.com") || Contains(url, "x.com") then Twitter
    else if Contains(url, "facebook.com") then Facebook
    else Other
  }

  /** `Other` exactly when none of the seven needles occurs. */
  lemma OtherIffNoNeedle(url: string)
    ensures DetectPlatform(url) == Other <==>
      && !Contains(url, "youtube.com") && !Contains(url, "youtu.be")
      && !Contains(url, "tiktok.com") && !Contains(url, "instagram.com")
      && !Contains(url, "twitter.com") && !Contains(url, "x.com")
      && !Contains(url, "facebook.com")
  {
    var r := DetectPlatform(url);
    if r == Other {
      assert !Matches(Youtube, url) && !Matches(Twitter, url);
      assert !Contains(url, Needles(Youtube)[1]) && !Contains(url, Needles(Twitter)[1]);
    }
  }

  /** A short YouTube link wins over any later rule, TikTok included. */
  lemma ShortYoutubeLinkWins(url: string)
    requires Contains(url, "youtu.be")
    ensures DetectPlatform(url) == Youtube
  {
    assert Matches(Youtube, url) by {
      assert Contains(url, Needles(Youtube)[1]);
    }
  }

  /**
   Any URL containing "x.com" and none of the earlier needles is classified
   as Twitter, including hosts that merely end in "x.com" such as "dropbox.com".
   */
  lemma XDotComIsTwitter(url: string)
    requires Contains(url, "x.com")
    requires !Contains(url, "youtube.com") && !Contains(url, "youtu.be")
    requires !Contains(url, "tiktok.com") && !Contains(url, "instagram.com")
    ensures DetectPlatform(url) == Twitter
  {
    assert Matches(Twitter, url) by {
      assert Contains(url, Needles(Twitter)[1]);
    }
  }

  /** "dropbox.com" contains the Twitter needle "x.com". */
  lemma DropboxContainsXDotCom()
    ensures Contains("dropbox.com", "x.com")
  {
    assert OccursAt("dropbox.com", "x.com", 6);
    OccursAtContains("dropbox.com", "x.com", 6);
  }

  /** A needle with a character the URL lacks does not occur in it. */
  lemma MissingCharacter(url: string, needle: string, c: char)
    requires c in needle && c !in url
    ensures !Contains(url, needle)
  {
    if Contains(url, needle) {
      ContainsKeepsCharacters(url, needle, c);
    }
  }

  /** The needle facts about one URL on a host that merely ends in "x.com". */
  lemma DropboxUrlNeedles(u: string)
    requires u == "https://dropbox.com/s/a"
    ensures Contains(u, "x.com")
    ensures !Contains(u, "youtube.com") && !Contains(u, "youtu.be")
    ensures !Contains(u, "tiktok.com") && !Contains(u, "instagram.com")
  {
    assert u[14..19] == "x.com";
    OccursAtContains(u, "x.com", 14);
    DropboxUrlLacks(u, 'y');
    MissingCharacter(u, "youtube.com", 'y');
    MissingCharacter(u, "youtu.be", 'y');
    DropboxUrlLacks(u, 'k');
    MissingCharacter(u, "tiktok.com", 'k');
    DropboxUrlLacks(u, 'g');
    MissingCharacter(u, "instagram.com", 'g');
  }

  lemma DropboxUrlLacks(u: string, c: char)
    requires u == "https://dropbox.com/s/a"
    requires c == 'y' || c == 'k' || c == 'g'
    ensures c !in u
  {
  }

  /** A Dropbox link is classified as Twitter: the "x.com" test is a plain substring test. */
  lemma DropboxLinkIsTwitter()
    ensures DetectPlatform("https://dropbox.com/s/a") == Twitter
  {
    DropboxUrlNeedles("https://dropbox.com/s/a");
    XDotComIsTwitter("https://dropbox.com/s/a");
  }

  /** No needle contains whitespace, so each survives `trim` unchanged. */
  lemma NeedlesHaveNoWhitespace(p: Platform, k: int)
    requires 0 <= k < |Needles(p)|
    ensures |Needles(p)[k]| > 0
    ensures forall j :: 0 <= j < |Needles(p)[k]| ==> !IsJsWhitespace(Needles(p)[k][j])
  {
  }

  /**
   Classifying the raw input (as the submit handler does) and classifying
   the trimmed URL stored in the entry always agree.
   */
  lemma DetectIgnoresTrim(url: string)
    ensures DetectPlatform(Trim(url)) == DetectPlatform(url)
  {
    forall p: Platform ensures Matches(p, Trim(url)) <==> Matches(p, url) {
      forall k | 0 <= k < |Needles(p)|
        ensures Contains(Trim(url), Needles(p)[k]) <==> Contains(url, Needles(p)[k])
      {
        NeedlesHaveNoWhitespace(p, k);
        ContainsUnderTrim(url, Needles(p)[k]);
      }
    }
  }

  /**
   The icon and catalogue shown while typing use `url ? detectPlatform(url) : 'other'`;
   the guard is redundant because the empty URL already classifies as `Other`.
   */
  function DisplayedPlatform(url: string): (r: Platform)
    ensures r == DetectPlatform(url)
  {
    if url == "" then Other else DetectPlatform(url)
  }

  datatype FormatOption = FormatOption(value: string, caption: string)

  /** The four formats every platform offers. */
  const CommonFormats: seq<FormatOption> := [
    FormatOption("mp4-720", "Vídeo MP4 (720p)"),
    FormatOption("mp4-1080", "Vídeo MP4 (1080p)"),
    FormatOption("mp3", "Áudio MP3"),
    FormatOption("wav", "Áudio WAV")
  ]

  /** YouTube adds 4K MP4 and WebM after the common four; every other platform gets just the common four. */
  function FormatOptions(p: Platform): (r: seq<FormatOption>)
    ensures |r| == if p == Youtube then 6 else 4
    ensures r[..4] == CommonFormats
    ensures p == Youtube ==> r[4].value == "mp4-4k" && r[5].value == "webm"
  {
    if p == Youtube then
      CommonFormats + [FormatOption("mp4-4k", "Vídeo MP4 (4K)"), FormatOption("webm", "Vídeo WebM")]
    else
      CommonFormats
  }

  /** Option values are distinct within each catalogue (they are the select's keys). */
  lemma FormatValuesDistinct(p: Platform)
    ensures forall i, j :: 0 <= i < j < |FormatOptions(p)| ==> FormatOptions(p)[i].value != FormatOptions(p)[j].value
  {
  }

  datatype DownloadMode = Audio | Video

  /** The JSON body of the request: `{url, vQuality, downloadMode, filenamePattern}`. */
  datatype ApiRequest = ApiRequest(url: string, vQuality: string, downloadMode: DownloadMode, filenamePattern: string)

  /** Video quality requested for each format that has one. */
  const QualityMap: map<string, string> := map[
    "mp4-720" := "720",
    "mp4-1080" := "1080",
    "mp4-4k" := "2160",
    "webm" := "1080"
  ]

  predicate IsAudioFormat(format: string) {
    format == "mp3" || format == "wav"
  }

  /**
   The request for a trimmed URL and a selected format: audio mode exactly
   for MP3 and WAV; the mapped quality when the format has one, else "720".
   */
  function BuildRequest(trimmedUrl: string, format: string): (r: ApiRequest)
    ensures r.url == trimmedUrl && r.filenamePattern == "pretty"
    ensures r.downloadMode == Audio <==> format == "mp3" || format == "wav"
    ensures format in QualityMap ==> r.vQuality == QualityMap[format]
    ensures format !in QualityMap ==> r.vQuality == "720"
    ensures r.vQuality == "720" || r.vQuality == "1080" || r.vQuality == "2160"
  {
    var quality := if format in QualityMap && QualityMap[format] != "" then QualityMap[format] else "720";
    ApiRequest(trimmedUrl, quality, if IsAudioFormat(format) then Audio else Video, "pretty")
  }

  /**
   Across every catalogue the request mode agrees with the option's label:
   audio exactly for the options labelled "Áudio", and every video option
   has its own entry in the quality map, so only audio options reach the
   "720" fallback.
   */
  lemma CatalogueAgreesWithRequest(p: Platform, i: int, url: string)
    requires 0 <= i < |FormatOptions(p)|
    ensures BuildRequest(url, FormatOptions(p)[i].value).downloadMode == Audio
      <==> StartsWith(FormatOptions(p)[i].caption, "Áudio")
    ensures FormatOptions(p)[i].value in QualityMap
      <==> BuildRequest(url, FormatOptions(p)[i].value).downloadMode == Video
  {
    var o := FormatOptions(p)[i];
    if i < 4 {
      assert o == CommonFormats[i];
    }
    if IsAudioFormat(o.value) {
      assert o.caption[..5] == "Áudio";
    } else {
      assert o.caption[0] == 'V';
    }
  }
}

=== FILE: sanitizer.dfy ===
/**
 The URL downloader's file-name sanitiser. After Unicode NFD normalisation
 it removes combining diacritical marks, replaces every run of characters
 outside `[a-zA-Z0-9-_]` by one underscore, collapses runs of underscores,
 strips one leading and one trailing underscore, and keeps at most the
 first 80 characters. The NFD step itself is not modelled: the input here
 is the already-normalised string.
 */
module FileNameSanitizer {

  const MaxLength: nat := 80

  /** The characters the replacement step keeps: ASCII letters, digits, '-' and '_'. */
  predicate IsKept(c: char) {
    ('a' <= c <= 'z') || ('A' <= c <= 'Z') || ('0' <= c <= '9') || c == '-' || c == '_'
  }

  /** The combining diacritical marks block, U+0300 to U+036F. */
  predicate IsCombiningMark(c: char) {
    '\U{300}' <= c <= '\U{36F}'
  }

  /** Kept characters other than the underscore separator: the ones that carry the name. */
  predicate IsSignificant(c: char) {
    IsKept(c) && c != '_'
  }

  predicate AllKept(s: string) {
    forall i :: 0 <= i < |s| ==> IsKept(s[i])
  }

  predicate NoDoubleUnderscore(s: string) {
    forall i :: 0 <= i < |s| - 1 ==> !(s[i] == '_' && s[i + 1] == '_')
  }

  /** The significant characters of `s`, in order. */
  function Letters(s: string): (r: string)
    ensures |r| <= |s|
    ensures forall i :: 0 <= i < |r| ==> IsSignificant(r[i])
  {
    if |s| == 0 then [] else (if IsSignificant(s[0]) then [s[0]] else []) + Letters(s[1..])
  }

  lemma {:induction false} LettersAppend(a: string, b: string)
    ensures Letters(a + b) == Letters(a) + Letters(b)
    decreases |a|
  {
    if |a| == 0 {
      assert a + b == b;
    } else {
      assert (a + b)[1..] == a[1..] + b;
      LettersAppend(a[1..], b);
    }
  }

  lemma {:induction false} LettersOfNoise(s: string)
    requires forall i :: 0 <= i < |s| ==> !IsSignificant(s[i])
    ensures Letters(s) == []
    decreases |s|
  {
    if |s| > 0 {
      LettersOfNoise(s[1..]);
    }
  }

  /** Dropping a prefix with no significant character keeps the letters. */
  lemma DropNoiseKeepsLetters(s: string, k: nat)
    requires k <= |s|
    requires forall i :: 0 <= i < k ==> !IsSignificant(s[i])
    ensures Letters(s[k..]) == Letters(s)
  {
    assert s == s[..k] + s[k..];
    LettersAppend(s[..k], s[k..]);
    LettersOfNoise(s[..k]);
  }

  /** The letters of a prefix are a prefix of the letters. */
  lemma LettersOfPrefix(s: string, k: nat)
    requires k <= |s|
    ensures Letters(s[..k]) <= Letters(s)
  {
    assert s == s[..k] + s[k..];
    LettersAppend(s[..k], s[k..]);
  }

  // Step 1: remove combining marks.

  function StripMarks(s: string): (r: string)
    ensures |r| <= |s|
    ensures forall i :: 0 <= i < |r| ==> !IsCombiningMark(r[i])
  {
    if |s| == 0 then [] else (if IsCombiningMark(s[0]) then [] else [s[0]]) + StripMarks(s[1..])
  }

  lemma {:induction false} StripMarksKeepsLetters(s: string)
    ensures Letters(StripMarks(s)) == Letters(s)
    decreases |s|
  {
    if |s| > 0 {
      var head := if IsCombiningMark(s[0]) then [] else [s[0]];
      LettersAppend(head, StripMarks(s[1..]));
      StripMarksKeepsLetters(s[1..]);
    }
  }

  lemma {:induction false} StripMarksIdentity(s: string)
    requires forall i :: 0 <= i < |s| ==> !IsCombiningMark(s[i])
    ensures StripMarks(s) == s
    decreases |s|
  {
    if |s| > 0 {
      StripMarksIdentity(s[1..]);
    }
  }

  // Step 2: replace runs of rejected characters by one underscore.

  /** The length of the run of rejected characters at the front of `s`. */
  function RejectedRun(s: string): (n: nat)
    ensures n <= |s|
    ensures forall i :: 0 <= i < n ==> !IsKept(s[i])
    ensures n < |s| ==> IsKept(s[n])
    decreases |s|
  {
    if |s| > 0 && !IsKept(s[0]) then 1 + RejectedRun(s[1..]) else 0
  }

  /** Each maximal run of rejected characters becomes a single '_'; kept characters pass through. */
  function ReplaceRejectedRuns(s: string): (r: string)
    ensures |r| <= |s|
    ensures AllKept(r)
    decreases |s|
  {
    if |s| == 0 then []
    else if IsKept(s[0]) then [s[0]] + ReplaceRejectedRuns(s[1..])
    else "_" + ReplaceRejectedRuns(s[RejectedRun(s)..])
  }

  lemma {:induction false} ReplaceKeepsLetters(s: string)
    ensures Letters(ReplaceRejectedRuns(s)) == Letters(s)
    decreases |s|
  {
    if |s| > 0 {
      if IsKept(s[0]) {
        LettersAppend([s[0]], ReplaceRejectedRuns(s[1..]));
        ReplaceKeepsLetters(s[1..]);
      } else {
        var n := RejectedRun(s);
        LettersAppend("_", ReplaceRejectedRuns(s[n..]));
        ReplaceKeepsLetters(s[n..]);
        DropNoiseKeepsLetters(s, n);
      }
    }
  }

  /** A kept first character passes through. */
  lemma ReplaceKeptHead(c: char, t: string)
    requires IsKept(c)
    ensures ReplaceRejectedRuns([c] + t) == [c] + ReplaceRejectedRuns(t)
  {
    assert ([c] + t)[1..] == t;
  }

  /** A single rejected character before a kept one becomes '_'. */
  lemma ReplaceRejectedHead(c: char, t: string)
    requires !IsKept(c)
    requires |t| > 0 ==> IsKept(t[0])
    ensures ReplaceRejectedRuns([c] + t) == "_" + ReplaceRejectedRuns(t)
  {
    assert RejectedRun([c] + t) == 1 by {
      assert ([c] + t)[1..] == t;
    }
    assert ([c] + t)[1..] == t;
  }

  /** A prefix of kept characters passes through unchanged. */
  lemma {:induction false} ReplaceKeptPrefix(w: string, t: string)
    requires AllKept(w)
    ensures ReplaceRejectedRuns(w + t) == w + ReplaceRejectedRuns(t)
    decreases |w|
  {
    if |w| == 0 {
      assert w + t == t;
    } else {
      assert w + t == [w[0]] + (w[1..] + t);
      ReplaceKeptHead(w[0], w[1..] + t);
      ReplaceKeptPrefix(w[1..], t);
      assert w == [w[0]] + w[1..];
    }
  }

  /** A block of rejected characters followed by a kept one (or nothing) is one whole run. */
  lemma {:induction false} RejectedRunOf(w: string, t: string)
    requires forall i :: 0 <= i < |w| ==> !IsKept(w[i])
    requires |t| > 0 ==> IsKept(t[0])
    ensures RejectedRun(w + t) == |w|
    decreases |w|
  {
    if |w| > 0 {
      assert (w + t)[1..] == w[1..] + t;
      RejectedRunOf(w[1..], t);
    } else {
      assert w + t == t;
    }
  }

  /** A whole run of rejected characters, however long, becomes exactly one '_'. */
  lemma ReplaceRejectedRun(w: string, t: string)
    requires |w| > 0 && forall i :: 0 <= i < |w| ==> !IsKept(w[i])
    requires |t| > 0 ==> IsKept(t[0])
    ensures ReplaceRejectedRuns(w + t) == "_" + ReplaceRejectedRuns(t)
  {
    RejectedRunOf(w, t);
    assert (w + t)[0] == w[0];
    assert (w + t)[|w|..] == t;
  }

  // Step 3: collapse runs of underscores.

  /** The length of the run of underscores at the front of `s`. */
  function UnderscoreRun(s: string): (n: nat)
    ensures n <= |s|
    ensures forall i :: 0 <= i < n ==> s[i] == '_'
    ensures n < |s| ==> s[n] != '_'
    decreases |s|
  {
    if |s| > 0 && s[0] == '_' then 1 + UnderscoreRun(s[1..]) else 0
  }

  /** Each maximal run of underscores becomes a single '_'. */
  function CollapseUnderscores(s: string): (r: string)
    ensures |r| <= |s|
    ensures AllKept(s) ==> AllKept(r)
    ensures NoDoubleUnderscore(r)
    ensures |s| > 0 ==> |r| > 0 && r[0] == s[0]
    decreases |s|
  {
    if |s| == 0 then []
    else if s[0] == '_' then "_" + CollapseUnderscores(s[UnderscoreRun(s)..])
    else [s[0]] + CollapseUnderscores(s[1..])
  }

  lemma {:induction false} CollapseKeepsLetters(s: string)
    ensures Letters(CollapseUnderscores(s)) == Letters(s)
    decreases |s|
  {
    if |s| > 0 {
      if s[0] == '_' {
        var n := UnderscoreRun(s);
        LettersAppend("_", CollapseUnderscores(s[n..]));
        CollapseKeepsLetters(s[n..]);
        DropNoiseKeepsLetters(s, n);
      } else {
        LettersAppend([s[0]], CollapseUnderscores(s[1..]));
        CollapseKeepsLetters(s[1..]);
      }
    }
  }

  lemma {:induction false} CollapseIdentity(s: string)
    requires NoDoubleUnderscore(s)
    ensures CollapseUnderscores(s) == s
    decreases |s|
  {
    if |s| > 0 {
      if s[0] == '_' {
        assert UnderscoreRun(s) == 1 by {
          assert |s| > 1 ==> s[1..][0] != '_';
        }
      }
      CollapseIdentity(s[1..]);
    }
  }

  /** A block of `n` underscores followed by another character (or nothing) is one whole run. */
  lemma {:induction false} UnderscoreRunOf(n: nat, t: string)
    requires |t| > 0 ==> t[0] != '_'
    ensures UnderscoreRun(seq(n, _ => '_') + t) == n
    decreases n
  {
    var u := seq(n, _ => '_') + t;
    if n > 0 {
      assert u[1..] == seq(n - 1, _ => '_') + t;
      UnderscoreRunOf(n - 1, t);
    } else {
      assert u == t;
    }
  }

  /** A run of underscores of any length is kept as exactly one '_', not deleted. */
  lemma CollapseRun(n: nat, t: string)
    requires n > 0 && (|t| > 0 ==> t[0] != '_')
    ensures CollapseUnderscores(seq(n, _ => '_') + t) == "_" + CollapseUnderscores(t)
  {
    var u := seq(n, _ => '_') + t;
    UnderscoreRunOf(n, t);
    assert u[0] == '_';
    assert u[n..] == t;
  }

  /** Any character other than '_' passes through collapsing. */
  lemma CollapseKeptHead(c: char, t: string)
    requires c != '_'
    ensures CollapseUnderscores([c] + t) == [c] + CollapseUnderscores(t)
  {
    assert ([c] + t)[1..] == t;
  }

  // Step 4: strip one leading and one trailing underscore.

  /** Removes one leading '_' and then one trailing '_' (a lone "_" becomes empty). */
  function TrimUnderscore(s: string): (r: string)
    ensures |r| <= |s|
    ensures AllKept(s) ==> AllKept(r)
    ensures NoDoubleUnderscore(s) ==> NoDoubleUnderscore(r)
    ensures NoDoubleUnderscore(s) && |r| > 0 ==> r[0] != '_' && r[|r| - 1] != '_'
    ensures |s| > 0 && s[0] != '_' && s[|s| - 1] != '_' ==> r == s
  {
    var a := if |s| > 0 && s[0] == '_' then s[1..] else s;
    if |a| > 0 && a[|a| - 1] == '_' then a[..|a| - 1] else a
  }

  /** `/^_|_$/g` cuts at most one character at each end, and only an underscore. */
  lemma TrimUnderscoreCutsEnds(s: string) returns (a: nat, b: nat)
    ensures a <= 1 && a <= b <= |s| && |s| - b <= 1
    ensures TrimUnderscore(s) == s[a..b]
    ensures a == 1 ==> s[0] == '_'
    ensures b < |s| ==> s[|s| - 1] == '_'
  {
    a := if |s| > 0 && s[0] == '_' then 1 else 0;
    b := if |s| - a > 0 && s[|s| - 1] == '_' then |s| - 1 else |s|;
    var t := s[a..];
    if |t| > 0 && t[|t| - 1] == '_' {
      assert t[..|t| - 1] == s[a..b];
    } else {
      assert t == s[a..b];
    }
  }

  lemma TrimUnderscoreKeepsLetters(s: string)
    ensures Letters(TrimUnderscore(s)) == Letters(s)
  {
    var a := if |s| > 0 && s[0] == '_' then s[1..] else s;
    if |s| > 0 && s[0] == '_' {
      DropNoiseKeepsLetters(s, 1);
    }
    if |a| > 0 && a[|a| - 1] == '_' {
      assert a == a[..|a| - 1] + [a[|a| - 1]];
      LettersAppend(a[..|a| - 1], [a[|a| - 1]]);
    }
  }

  // Step 5: keep the first 80 characters.

  function Truncate(s: string): (r: string)
    ensures |r| <= MaxLength
    ensures r <= s
    ensures |s| <= MaxLength ==> r == s
  {
    if |s| <= MaxLength then s else s[..MaxLength]
  }

  /** The untruncated result of steps 1 to 4. */
  function Normalised(nfd: string): string {
    TrimUnderscore(CollapseUnderscores(ReplaceRejectedRuns(StripMarks(nfd))))
  }

  /**
   `sanitizeFileName` on the NFD form of a name: at most 80 characters, only
   ASCII letters, digits, '-' and '_', never two underscores in a row, and
   never a leading underscore.
   */
  function SanitizeFileName(nfd: string): (r: string)
    ensures |r| <= MaxLength
    ensures AllKept(r)
    ensures NoDoubleUnderscore(r)
    ensures |r| > 0 ==> r[0] != '_'
  {
    Truncate(Normalised(nfd))
  }

  /** No step lengthens the name. */
  lemma NormalisedIsShorter(nfd: string)
    ensures |Normalised(nfd)| <= |nfd|
  {
  }

  /**
   The significant characters of the result are a prefix of those of the
   input, in order; when the input has at most 80 characters none is lost.
   */
  lemma SanitizeKeepsLetters(nfd: string)
    ensures Letters(SanitizeFileName(nfd)) <= Letters(nfd)
    ensures |nfd| <= MaxLength ==> Letters(SanitizeFileName(nfd)) == Letters(nfd)
  {
    var s1 := StripMarks(nfd);
    var s2 := ReplaceRejectedRuns(s1);
    var s3 := CollapseUnderscores(s2);
    var s4 := TrimUnderscore(s3);
    StripMarksKeepsLetters(nfd);
    ReplaceKeepsLetters(s1);
    CollapseKeepsLetters(s2);
    TrimUnderscoreKeepsLetters(s3);
    assert Letters(s4) == Letters(nfd);
    if |s4| > MaxLength {
      LettersOfPrefix(s4, MaxLength);
    }
  }

  /** A name the sanitiser could have produced without truncating it. */
  predicate IsCanonical(s: string) {
    && |s| <= MaxLength
    && AllKept(s)
    && NoDoubleUnderscore(s)
    && (|s| > 0 ==> s[0] != '_' && s[|s| - 1] != '_')
  }

  /** A canonical name passes every step unchanged. */
  lemma CanonicalIsFixed(s: string)
    requires IsCanonical(s)
    ensures SanitizeFileName(s) == s
  {
    forall i | 0 <= i < |s| ensures !IsCombiningMark(s[i]) {
      assert IsKept(s[i]);
    }
    StripMarksIdentity(s);
    ReplaceKeptPrefix(s, []);
    assert s + [] == s;
    CollapseIdentity(s);
  }

  /** A name the sanitiser leaves unchanged is canonical: it was short enough not to be cut. */
  lemma FixedIsCanonical(s: string)
    requires SanitizeFileName(s) == s
    ensures IsCanonical(s)
  {
    NormalisedIsShorter(s);
    assert Truncate(Normalised(s)) == Normalised(s);
  }

  /** Canonical names are exactly the names the sanitiser leaves unchanged. */
  lemma FixedPointsAreCanonical(s: string)
    ensures SanitizeFileName(s) == s <==> IsCanonical(s)
  {
    if IsCanonical(s) {
      CanonicalIsFixed(s);
    }
    if SanitizeFileName(s) == s {
      FixedIsCanonical(s);
    }
  }

  /**
   The trailing-underscore strip runs before the cut to 80 characters, so
   the cut can expose a new trailing underscore: 79 significant characters
   followed by " b" sanitise to those 79 characters and '_'.
   */
  lemma CutCanEndInUnderscore(w: string)
    requires |w| == MaxLength - 1
    requires forall i :: 0 <= i < |w| ==> IsSignificant(w[i])
    ensures SanitizeFileName(w + " b") == w + "_"
  {
    var s := w + " b";
    var s2 := w + "_b";
    MarksOfSpaceB(w);
    assert AllKept(w);
    ReplaceSpaceB(w);
    CollapseUnderscoreB(w);
    assert StripMarks(s) == s;
    assert ReplaceRejectedRuns(s) == s2;
    assert CollapseUnderscores(s2) == s2;
    assert TrimUnderscore(s2) == s2;
    assert s2[..MaxLength] == w + "_";
  }

  /** Significant characters followed by " b" carry no combining mark. */
  lemma MarksOfSpaceB(w: string)
    requires forall i :: 0 <= i < |w| ==> IsSignificant(w[i])
    ensures StripMarks(w + " b") == w + " b"
  {
    var s := w + " b";
    forall i | 0 <= i < |s| ensures !IsCombiningMark(s[i]) {
      if i < |w| {
        assert s[i] == w[i] && IsSignificant(w[i]);
      } else {
        assert s[i] == " b"[i - |w|];
      }
    }
    StripMarksIdentity(s);
  }

  /** The rejected space before "b" becomes an underscore. */
  lemma ReplaceSpaceB(w: string)
    requires AllKept(w)
    ensures ReplaceRejectedRuns(w + " b") == w + "_b"
  {
    ReplaceKeptPrefix(w, " b");
    SpaceBReplaced();
  }

  lemma SpaceBReplaced()
    ensures ReplaceRejectedRuns(" b") == "_b"
  {
    ReplaceKeptHead('b', []);
    assert ['b'] + [] == "b";
    ReplaceRejectedHead(' ', "b");
    assert [' '] + "b" == " b";
  }

  /** Significant characters followed by "_b" hold no double underscore. */
  lemma CollapseUnderscoreB(w: string)
    requires forall i :: 0 <= i < |w| ==> IsSignificant(w[i])
    ensures CollapseUnderscores(w + "_b") == w + "_b"
  {
    var s2 := w + "_b";
    forall i | 0 <= i < |s2| - 1 ensures !(s2[i] == '_' && s2[i + 1] == '_') {
      if i < |w| { assert s2[i] == w[i]; }
    }
    CollapseIdentity(s2);
  }
}

=== FILE: text.dfy ===
/**
 The JavaScript string operations the two widgets rely on, stated over
 `string` (a sequence of characters): `includes`, `startsWith`, `trim`,
 `lastIndexOf`, `substring` and ASCII case mapping.
 */
module Text {

  /** `s.includes(p)`: `p` occurs in `s` as a contiguous block. */
  predicate Contains(s: string, p: string)
    decreases |s|
  {
    p <= s || (|s| > 0 && Contains(s[1..], p))
  }

  /** `p` occurs in `s` starting at index `i`. */
  predicate OccursAt(s: string, p: string, i: int) {
    0 <= i && i + |p| <= |s| && s[i..i + |p|] == p
  }

  /** `Contains` is exactly "occurs at some index". */
  lemma {:induction false} ContainsIffOccurs(s: string, p: string)
    ensures Contains(s, p) <==> exists i :: OccursAt(s, p, i)
    decreases |s|
  {
    if p <= s {
      assert OccursAt(s, p, 0);
    } else if |s| == 0 {
      assert forall i :: !OccursAt(s, p, i);
    } else {
      ContainsIffOccurs(s[1..], p);
      if Contains(s[1..], p) {
        var i :| OccursAt(s[1..], p, i);
        assert s[1..][i..i + |p|] == s[i + 1..i + 1 + |p|];
        assert OccursAt(s, p, i + 1);
      }
      if exists i :: OccursAt(s, p, i) {
        var i :| OccursAt(s, p, i);
        assert i != 0;
        assert s[1..][i - 1..i - 1 + |p|] == s[i..i + |p|];
        assert OccursAt(s[1..], p, i - 1);
      }
    }
  }

  /** A witness position proves containment. */
  lemma OccursAtContains(s: string, p: string, i: int)
    requires OccursAt(s, p, i)
    ensures Contains(s, p)
  {
    ContainsIffOccurs(s, p);
  }

  /** Every character of a contained needle is a character of the haystack. */
  lemma ContainsKeepsCharacters(s: string, p: string, c: char)
    requires Contains(s, p) && c in p
    ensures c in s
  {
    ContainsIffOccurs(s, p);
    var i :| OccursAt(s, p, i);
    var k :| 0 <= k < |p| && p[k] == c;
    assert s[i + k] == s[i..i + |p|][k];
  }

  /** `s.startsWith(p)`. */
  predicate StartsWith(s: string, p: string) {
    p <= s
  }

  /** `startsWith` is an occurrence at index 0, so it implies `includes`. */
  lemma StartsWithOccurs(s: string, p: string)
    ensures StartsWith(s, p) <==> OccursAt(s, p, 0)
    ensures StartsWith(s, p) ==> Contains(s, p)
  {
  }

  /**
   The characters `String.prototype.trim` removes: the ECMAScript WhiteSpace
   set (tab, vertical tab, form feed, space, no-break space, byte order mark
   and every space separator of category Zs) and the LineTerminator set.
   */
  predicate IsJsWhitespace(c: char) {
    || c == '\t' || c == '\U{B}' || c == '\U{C}' || c == ' '
    || c == '\U{A0}' || c == '\U{FEFF}' || c == '\U{1680}'
    || ('\U{2000}' <= c <= '\U{200A}')
    || c == '\U{202F}' || c == '\U{205F}' || c == '\U{3000}'
    || c == '\n' || c == '\r' || c == '\U{2028}' || c == '\U{2029}'
  }

  /** The number of leading whitespace characters. */
  function LeadingWhitespace(s: string): (n: nat)
    ensures n <= |s|
    ensures forall i :: 0 <= i < n ==> IsJsWhitespace(s[i])
    ensures n < |s| ==> !IsJsWhitespace(s[n])
    decreases |s|
  {
    if |s| > 0 && IsJsWhitespace(s[0]) then 1 + LeadingWhitespace(s[1..]) else 0
  }

  /** The length of `s` once trailing whitespace is dropped. */
  function EndOfContent(s: string): (n: nat)
    ensures n <= |s|
    ensures forall i :: n <= i < |s| ==> IsJsWhitespace(s[i])
    ensures n > 0 ==> !IsJsWhitespace(s[n - 1])
    decreases |s|
  {
    if |s| > 0 && IsJsWhitespace(s[|s| - 1]) then EndOfContent(s[..|s| - 1]) else |s|
  }

  /** `s.trim()`: leading whitespace is dropped, then trailing whitespace. */
  function Trim(s: string): string {
    var a := LeadingWhitespace(s);
    s[a..][..EndOfContent(s[a..])]
  }

  /** `trim` cuts `s` to the slice between its first and last non-whitespace characters. */
  lemma TrimIsSlice(s: string) returns (a: nat, b: nat)
    ensures a <= b <= |s| && Trim(s) == s[a..b]
    ensures forall i :: 0 <= i < a ==> IsJsWhitespace(s[i])
    ensures forall i :: b <= i < |s| ==> IsJsWhitespace(s[i])
    ensures a < b ==> !IsJsWhitespace(s[a]) && !IsJsWhitespace(s[b - 1])
  {
    a := LeadingWhitespace(s);
    var t := s[a..];
    b := a + EndOfContent(t);
    forall i | b <= i < |s| ensures IsJsWhitespace(s[i]) {
      assert s[i] == t[i - a];
    }
    if a < b {
      assert s[b - 1] == t[b - 1 - a];
    }
  }

  /** Trimming twice is trimming once. */
  lemma TrimIdempotent(s: string)
    ensures Trim(Trim(s)) == Trim(s)
  {
    var a, b := TrimIsSlice(s);
    var r := Trim(s);
    assert LeadingWhitespace(r) == 0;
    assert EndOfContent(r) == |r|;
    assert r[0..][..|r|] == r;
  }

  /** A string is blank for `!s.trim()` exactly when every character is whitespace. */
  lemma BlankIffAllWhitespace(s: string)
    ensures Trim(s) == [] <==> forall i :: 0 <= i < |s| ==> IsJsWhitespace(s[i])
  {
    var a, b := TrimIsSlice(s);
    if forall i :: 0 <= i < |s| ==> IsJsWhitespace(s[i]) {
      assert a == b;
    }
  }

  /** An occurrence inside a slice is an occurrence in the whole string. */
  lemma SliceContains(s: string, a: nat, b: nat, p: string)
    requires a <= b <= |s|
    requires Contains(s[a..b], p)
    ensures Contains(s, p)
  {
    ContainsIffOccurs(s[a..b], p);
    var i :| OccursAt(s[a..b], p, i);
    forall k | 0 <= k < |p| ensures s[a + i + k] == p[k] {
      assert s[a..b][i + k] == s[a..b][i..i + |p|][k];
    }
    assert s[a + i..a + i + |p|] == p;
    OccursAtContains(s, p, a + i);
  }

  /** An occurrence lying between `a` and `b` is an occurrence in the slice `s[a..b]`. */
  lemma OccurrenceInSlice(s: string, a: nat, b: nat, p: string, i: int)
    requires a <= b <= |s|
    requires OccursAt(s, p, i) && a <= i && i + |p| <= b
    ensures Contains(s[a..b], p)
  {
    var t := s[a..b];
    var inSlice, inWhole := t[i - a..i - a + |p|], s[i..i + |p|];
    forall k | 0 <= k < |p| ensures inSlice[k] == inWhole[k] {
      assert t[i - a + k] == s[i + k];
    }
    assert inSlice == inWhole;
    OccursAtContains(t, p, i - a);
  }

  /**
   Trimming never changes whether a non-empty, whitespace-free needle occurs:
   every occurrence lies between the first and last non-whitespace characters.
   */
  lemma ContainsUnderTrim(s: string, p: string)
    requires |p| > 0
    requires forall k :: 0 <= k < |p| ==> !IsJsWhitespace(p[k])
    ensures Contains(Trim(s), p) <==> Contains(s, p)
  {
    var a, b := TrimIsSlice(s);
    if Contains(Trim(s), p) {
      SliceContains(s, a, b, p);
    }
    if Contains(s, p) {
      ContainsIffOccurs(s, p);
      var i :| OccursAt(s, p, i);
      assert s[i] == p[0] && s[i + |p| - 1] == p[|p| - 1];
      OccurrenceInSlice(s, a, b, p, i);
    }
  }

  /** `s.lastIndexOf(c)`: the last index holding `c`, or -1 when there is none. */
  function LastIndexOf(s: string, c: char): (r: int)
    ensures -1 <= r < |s|
    ensures r >= 0 ==> s[r] == c
    ensures forall i :: r < i < |s| ==> s[i] != c
    decreases |s|
  {
    if |s| == 0 then -1
    else if s[|s| - 1] == c then |s| - 1
    else LastIndexOf(s[..|s| - 1], c)
  }

  /** Clamps an index argument into `[0, n]`, as `substring` does. */
  function Clamp(i: int, n: nat): (r: nat)
    ensures r <= n
    ensures 0 <= i <= n ==> r == i
    ensures i < 0 ==> r == 0
    ensures i > n ==> r == n
  {
    if i < 0 then 0 else if i > n then n else i
  }

  /**
   `s.substring(start, end)`: both indices are clamped into `[0, |s|]` and
   swapped when `start` exceeds `end`.
   */
  function Substring(s: string, start: int, end: int): (r: string)
    ensures 0 <= start <= end <= |s| ==> r == s[start..end]
    ensures end <= 0 && start <= 0 ==> r == []
  {
    var a := Clamp(start, |s|);
    var b := Clamp(end, |s|);
    if a <= b then s[a..b] else s[b..a]
  }

  function LowerChar(c: char): char {
    if 'A' <= c <= 'Z' then (c as int + 32) as char else c
  }

  function UpperChar(c: char): char {
    if 'a' <= c <= 'z' then (c as int - 32) as char else c
  }

  /** `s.toLowerCase()` restricted to ASCII letters: upper-case letters map to their lower-case forms. */
  function LowerAscii(s: string): (r: string)
    ensures |r| == |s|
    ensures forall i :: 0 <= i < |s| ==> !('A' <= r[i] <= 'Z')
    ensures forall i :: 0 <= i < |s| && 'A' <= s[i] <= 'Z' ==> r[i] as int == s[i] as int + 32
    ensures forall i :: 0 <= i < |s| && !('A' <= s[i] <= 'Z') ==> r[i] == s[i]
  {
    seq(|s|, i requires 0 <= i < |s| => LowerChar(s[i]))
  }

  /** Lower-casing is idempotent: a lower-cased string has nothing left to lower. */
  lemma LowerAsciiIdempotent(s: string)
    ensures LowerAscii(LowerAscii(s)) == LowerAscii(s)
  {
  }

  /** `p.charAt(0).toUpperCase() + p.slice(1)` for ASCII text. */
  function Capitalize(s: string): (r: string)
    ensures |r| == |s|
    ensures |s| == 0 || r[1..] == s[1..]
    ensures |s| > 0 ==> !('a' <= r[0] <= 'z')
    ensures |s| > 0 && 'a' <= s[0] <= 'z' ==> r[0] as int == s[0] as int - 32
    ensures |s| > 0 && !('a' <= s[0] <= 'z') ==> r[0] == s[0]
  {
    if |s| == 0 then s else [UpperChar(s[0])] + s[1..]
  }
}
